=== FILE: README.md ===
# bimg transform planner in Dafny

A model of the planning core of bimg (Go). bimg resizes, crops, embeds,
rotates, flips, zooms, blurs, watermarks and re-encodes images through
libvips. The model covers two files:

- `resize.go`: everything that decides what libvips is asked to do.
  - the geometry calculator: scale factor, integral shrink, residual,
    crop offsets and the JPEG shrink-on-load level;
  - the orientation resolver: the requested angle and the EXIF orientation;
  - option defaults and normalisation;
  - `Resize` and its stage helpers, written as a planner.
- `vips.go`: the pure byte-level and dispatch logic.
  - format sniffing by magic bytes;
  - the unknown-format guard of `vipsRead`;
  - the `MAX_SIZE` guard of `vipsExtract`;
  - the default interpretation of `vipsPreSave`;
  - the encoder choice of `vipsSave`.

`Resize` is modelled as a planner over an abstract raster: only the width
and height of the image matter. Each libvips call becomes an `Op` in an
ordered list. The planner returns that list, the final raster, the options
as rewritten, and the shrink and residual used, or the first error.
libvips itself is an oracle, the `Engine` value. It supplies:

- the decoded size;
- the sizes libvips chooses after shrink-on-load, `vips_shrink` and the
  affine;
- whether a call fails;
- the EXIF orientation;
- the interpolator's window size;
- colour-space support;
- whether a MAGICK loader matches;
- which output types are supported.

Calls whose result size follows from their arguments get that size in
`Model.Apply`: extract, embed, zoom, rotate and flip.

Files and modules:

- `base.dfy` (`Base`): Go's truncating `/` and `%` as `GoDiv`/`GoMod`,
  min/max, and the zero-means-default idiom.
- `model.dfy` (`Model`): options, raster, operations, failures, and the
  engine oracle.
- `geometry.dfy` (`Geometry`): `calculateCrop`, `calculateShrink`,
  `calculateResidual`, and the shrink-on-load level.
- `orientation.dfy` (`Orientation`): `getAngle`, `calculateRotationAndFlip`.
- `vips.dfy` (`Vips`): sniffing, the read and extract guards, pre-save
  and save.
- `planner.dfy` (`Planner`): the imperative parts of `resize.go`, as methods
  that reassign the image, the scale variables and their copy of the
  options, as the Go code does.

Decisions on how to represent the source:

- **Options by value.** `Options` is passed by value in Go. The functions
  that write through `*Options` touch only the caller's local copy, so
  they are methods that return the new value.
- **Exact reals.** Scale factors are exact `real`s and `.Floor` stands for
  `math.Floor`.
- **Go division.** Go division is written out wherever a numerator can be
  negative: crop offsets, embed offsets and `getAngle`.
- **The area-extract branch (resize.go:227-228)** is modelled as written.
  When `AreaWidth` is 0 the code sets `AreaHeight` to the width, so
  `AreaWidth` stays 0 and the branch always fails with "Extract area
  width/height params are required".
- **The shadowed `factor` in the JPEG block (resize.go:60)** is modelled.
  Only `shrink` and `residual` leave that block.
- **Short buffers in `vipsImageType`.** They index past the end of the
  buffer and panic. The model makes this an explicit `IndexPanic` outcome,
  computed with Go's left-to-right short-circuit comparisons.
- **Constants from outside these files.** `QUALITY`, `INTERPRETATION_sRGB`,
  `MAX_SIZE` and `WATERMARK_FONT` are not defined in these two files, so
  they are the `Defaults` parameter.
- **Enumerations.** `UNKNOWN` is the zero `ImageType`. Angles `D0`..`D270`
  are 0, 90, 180 and 270. Every gravity other than the four compass points
  behaves as the centre.
- **Exact affine.** The output-size guarantee of a forced resize needs an
  assumption about libvips's affine resample, `Model.ExactAffine`: when
  the scaled size is a whole number, libvips produces exactly that size.
- **Accepted geometry.** `Model.Fits` is an assumption about which calls
  libvips accepts, and `Model.Apply` fails every call outside it: a zoom
  factor of at least 1, an extract window that is non-empty and lies inside
  the image, and an embed canvas that is non-empty. So a successful
  `Vips.VipsExtract` yields a window inside the image, and a successful
  `Planner.ZoomImage` had a zoom of at least 1, because the model says
  libvips refuses the rest. The Go code does not check these itself.

## Model

| member | source | states |
|---|---|---|
| Base.OrDefault | resize.go:123-135 | a zero field takes the default and any other value is kept |
| Base.GoDiv | resize.go:395 | Go's quotient truncates toward zero: the remainder has the dividend's sign and is smaller than the divisor |
| Base.GoMod | resize.go:470 | Go's remainder: `a == GoDiv(a,b)*b + m`, with `m` strictly between `-b` and `b` and carrying the dividend's sign |
| Base.FloorOfQuotient | resize.go:375 | for a non-negative dividend, the floor of the real quotient is the integer quotient |
| Geometry.CentreOffset | resize.go:395 | `(d+1)/2` under truncation centres the window, the odd pixel going left/top; for negative `d` it lies in `(d, 0]` |
| Geometry.CalculateCrop | resize.go:390-410 | the gravity table: north gives top 0, south gives top = inH-outH, east gives left = inW-outW, west gives left 0; the other axis, and both for the default, are centred; a window no larger than the image has offsets inside `[0, in-out]` |
| Geometry.CropWindowInside | resize.go:216-219 | after clamping to `>= 0` and to `min(in, out)`, the crop window lies inside the image for every size and gravity |
| Geometry.ClampHidesDivisionMode | resize.go:219 | after the clamp to 0, Go's truncating and Dafny's flooring `(d+1)/2` agree |
| Geometry.CalculateShrink | resize.go:450-463 | `1 <= shrink <= max(1, floor(factor))`; shrink is 1 or at most the factor; with a window wider than 3 and factor >= 2, shrink*window <= 3*factor; otherwise shrink is `max(1, floor(factor))` |
| Geometry.CalculateResidual | resize.go:465-467 | `residual * factor == shrink`; it lies in (0, 1] when `1 <= shrink <= factor`, and above 1 when the factor is below 1 |
| Geometry.ResidualIsDownscale | resize.go:42-44 | for factor >= 1 the residual after `calculateShrink` lies in (0, 1] |
| Geometry.JpegShrinkLevel | resize.go:339-349 | the level is one of 1, 2, 4 and 8; it is 1 exactly when shrink < 2; otherwise it is the largest of 8, 4 and 2 not above shrink |
| Geometry.JpegPreShrinkNeverOvershoots | resize.go:59-69 | when `2 <= shrink <= factor`, the reduced factor is already >= 1, its floor is >= 1, `level * floor <= factor`, and the new residual lies in (0, 1] |
| Orientation.GetAngle | resize.go:469-475 | the result is a multiple of 90 and at most 270; for angle >= 0 it is at most the angle and within 90 of it unless capped; for a negative angle it truncates toward zero |
| Orientation.GetAngleIdempotent | resize.go:469-475 | normalising a normalised angle changes nothing |
| Orientation.GetAngleValues | resize.go:469-475 | a positive angle normalises to 0, 90, 180 or 270; 370 gives 270, 45 gives 0 and 180 gives 180 |
| Orientation.CalculateRotationAndFlip | resize.go:412-448 | a requested angle > 0 gives (0, false); EXIF values 3 to 8 rotate; 2, 4, 5 and 7 flip; a value outside 1..8 gives (0, false) |
| Orientation.MirroredOrientations | resize.go:430-444 | EXIF 2, 7, 4 and 5 rotate like their unmirrored partners 1, 6, 3 and 8 and add a flip |
| Vips.Probe | vips.go:394-404 | Go's short-circuit byte comparison: a hit exactly when the slice at the offset equals the magic; it panics exactly when the buffer ends before the first mismatch |
| Vips.VipsImageType | vips.go:389-412 | empty gives UNKNOWN; the PNG magic wins at any length; JPEG next; from 12 bytes on, the result is the declared type in the order PNG, JPEG, WEBP, TIFF (both byte orders), MAGICK, UNKNOWN; 1- and 2-byte buffers always panic, and any panic needs fewer than 12 bytes |
| Vips.BoolToInt | vips.go:429-434 | true gives 1 and false gives 0 |
| Vips.VipsRead | vips.go:210-227 | an UNKNOWN type fails with "Unsupported image format" before decoding; a sniffing panic is an error; otherwise the decoded image and the sniffed type, or the decoder's error |
| Vips.VipsExtract | vips.go:320-334 | a width or height above `MAX_SIZE` fails before any libvips call; otherwise exactly one extract call, and success yields a `width x height` raster lying inside the image |
| Vips.SaveEncoder | vips.go:292-305 | WEBP uses the webp encoder and PNG the png encoder with compression; TIFF, MAGICK and anything else use jpeg; quality is passed through, and interlace as `boolToInt` |
| Vips.VipsPreSave | vips.go:255-279 | interpretation 0 becomes sRGB and any other value is kept; the calls are the profile removal when `NoProfile` is set, then the conversion to that interpretation when libvips supports it, and nothing else |
| Vips.VipsSave | vips.go:281-318 | on success the calls are exactly the profile removal when asked, the colour-space conversion to the defaulted interpretation when libvips supports it, and the save with the encoder `SaveEncoder` chooses, last; the conversion appears exactly when supported and is never to another interpretation |
| Model.Apply | vips.go:147-181 | a failing libvips call reports an error naming that call; calls that do not reshape leave the raster as it is; profile removal never fails |
| Planner.WithDefaults | resize.go:123-136 | each of quality, compression, output type and interpretation takes its default exactly when it is zero, and nothing else changes; options that are already defaulted are left alone, and with non-zero defaults the result is defaulted, so a second application does nothing |
| Planner.ApplyDefaults | resize.go:123-136 | filling the fields one `if` at a time, as applyDefaults does, yields `WithDefaults` |
| Planner.NormalizeOperation | resize.go:138-142 | force is set exactly when none of force, crop, embed and enlarge is set, rotate is 0, and a dimension is given; no flag is cleared and nothing else changes; a second application does nothing |
| Planner.ImageTarget | resize.go:359-388 | both sides: under crop the scaled image covers the box, otherwise it fits inside, and one side matches exactly (the min/max of the two ratios); one side: the factor is that side's ratio and the other side is `in*W/in` rounded down; neither: factor 1 and the input size |
| Planner.ImageCalculations | resize.go:359-388 | the branches of imageCalculations compute exactly `ImageTarget` |
| Planner.Ratio | resize.go:361-362 | the ratio is positive and scales the requested side back to the input side |
| Planner.BoxFactor | resize.go:366-371 | the min of the two ratios covers the box and the max fits inside it, with one side tight |
| Planner.AspectSide | resize.go:373-379 | `floor(other / (side/out))` is the integer `other*out/side`, never negative |
| Planner.KeepAspect | resize.go:375 | dividing by the factor and flooring equals the integer aspect-preserving quotient |
| Planner.ShrinkJpegImage | resize.go:333-357 | one shrink-on-load call at the largest of 8, 4 and 2 not above shrink; the returned factor is the input factor divided by that level |
| Planner.ShrinkResidual | resize.go:321-328 | the recomputed residual makes one side of the shrunk raster exact; under crop it takes the larger ratio, so the result covers the box, and otherwise the smaller, so it fits |
| Planner.ShrinkImage | resize.go:313-331 | one `vips_shrink` call; on success the shrunk raster and the residual `ShrinkResidual` recomputes from it; on failure residual 0 and the shrink's error |
| Planner.Placement | resize.go:209-241 | the call of extractOrEmbedImage on success and the size it yields: a crop window of `min(in,W) x min(in,H)` inside the image; an embed canvas of exactly `W x H` with the image centred; the request's area with the height defaulting to `H`; no call and the image itself otherwise |
| Planner.ExtractOrEmbedImage | resize.go:209-241 | crop beats embed, which beats area. Crop extracts `min(in,W) x min(in,H)` at clamped gravity offsets inside the image. Embed makes exactly a `W x H` canvas with truncated centring offsets. Area with a zero area width always fails. With no case the image is unchanged. On success the call and the size are those of `Placement`. |
| Planner.ResampleToSize | resize.go:164-175 | resampling each axis by target/side lands exactly on the target, given an exact affine |
| Planner.Resample | resize.go:164-175 | under force one affine scaling the axes by `W/width` and `H/height`, giving exactly `W x H` when the affine is exact; otherwise one affine by the residual when it is non-zero, and no call and an unchanged raster when it is zero; on success the raster libvips resamples to; a failure is the affine's |
| Planner.Unforced | resize.go:177-180 | force switches crop and embed off and changes nothing else |
| Planner.Place | resize.go:177-185 | force switches crop and embed off: no embed, and with no offsets no call at all; otherwise embed gives exactly `W x H` and crop stays within `W x H`; on success the call and size of `Placement` for the unforced options; a failure is the call's own or a refused request, and a placeable request on a reliable engine succeeds |
| Planner.Resampling | resize.go:156-175 | the calls and raster of the shrink and affine on success: the shrink first when shrink > 1, then under force an affine last that lands on `W x H` when the affine is exact; with no shrink, no force and no residual no call and the raster unchanged |
| Planner.ShrinkAndResample | resize.go:156-175 | the shrink comes first when shrink > 1 and a failing shrink stops there; the affine, by `W/width` and `H/height` of the shrunk raster under force and by the residual `shrinkImage` recomputed otherwise, runs exactly when forced or that residual is non-zero; with no shrink, no force and no residual nothing happens; on success exactly the calls and raster of `Resampling` |
| Planner.Transformation | resize.go:153-191 | the calls and size of transformImage on success, the resampling followed by the placement of the unforced options, in pipeline order; the shrink first when shrink > 1; no resampling without shrink, force and residual |
| Planner.ForcedTransformation | resize.go:164-185 | under force the transformation resamples, never embeds, extracts only for an area, and yields exactly `W x H` without offsets when the affine is exact |
| Planner.PlacedTransformation | resize.go:177-185 | without force, a crop ends the calls with an extract and yields `min(resampled, W) x min(resampled, H)`; an embed ends them with an embed and yields exactly `W x H` |
| Planner.TransformImage | resize.go:153-191 | shrink, affine, then crop/embed/area in that order; the affine clause of `ShrinkAndResample`; force never embeds, never extracts without offsets, and yields exactly `W x H` when the affine is exact; embed without force yields `W x H`; crop without force never exceeds `W x H`; on success exactly the calls and size of `Transformation`; errors are the last call's or a refused request |
| Planner.ApplyEffects | resize.go:193-207 | one blur with the requested parameters exactly when sigma or minAmpl is positive; the size never changes |
| Planner.AutoRotation | resize.go:247-255 | unless auto-rotation is off, the EXIF flip is added and the EXIF angle is used when no angle is given; the resulting angle, normalised, is `RotationAngle` |
| Planner.Turning | resize.go:243-272 | at most one rotation and at most one flip, in that order: one call for a requested rotation and one for a flip either way |
| Planner.TurningCalls | resize.go:247-270 | the rotation by `RotationAngle` is there exactly when one is requested and is the only rotation; the horizontal flip exactly when requested or mirrored by EXIF; the vertical flop only otherwise |
| Planner.RotateAndFlipImage | resize.go:243-272 | a rotation by `RotationAngle` exactly when one is requested, first; an explicit angle is never overridden; flip (requested or from EXIF) beats flop; on success exactly the calls of `Turning`, and on failure a prefix of them; a quarter turn swaps the sides and nothing else changes them; a failure is the last call's |
| Planner.WatermarkDefaults | resize.go:279-298 | only the zero fields take their defaults (font, width/6, DPI 150, margin = width); opacity 0 becomes 0.25, above 1 is clamped to 1, and stays positive |
| Planner.WatermarkImage | resize.go:274-304 | no text means no call and no change; otherwise one watermark call with `WatermarkDefaults`, and the size never changes |
| Planner.ZoomImage | resize.go:306-311 | zoom 0 does nothing; zoom n magnifies by n+1; a negative zoom fails |
| Planner.ReadImage | resize.go:17-31 | an empty buffer fails before decoding; read errors and an unsupported output type are reported; the options gain their defaults for the sniffed type |
| Planner.ScaleCalculation | resize.go:41-56 | imageCalculations' size and factor, with `calculateShrink` and a residual that completes it; the no-enlarge guard, against imageCalculations' sizes, resets to the input's size with shrink 1 and residual 0; a forced or plain request for both sides keeps them; a request for no size is the identity |
| Planner.ScaledOptions | resize.go:39-56 | only force, width and height change; force is set exactly when requested or implied; the size is the scaling arithmetic's, the input's own under the no-enlarge guard and the requested one for a forced request for both sides |
| Planner.NoEnlargeOneSide | resize.go:48-56 | a one-side request of at least twice the input's width, under crop, embed or a rotation, is caught by the guard and leaves the input's size |
| Planner.CalculateScale | resize.go:38-56 | normalising and then computing the factors yields `ScaleCalculation`, with force set exactly when requested or implied and only force, width and height changed |
| Planner.PreShrink | resize.go:58-69 | shrink-on-load exactly for a JPEG with shrink >= 2, at `JpegShrinkLevel`; afterwards the shrink is the floor of the reduced factor and the residual that floor over the factor, which lies in (0, 1] and never overshoots |
| Planner.PlanScale | resize.go:35-69 | the scaling stage: the options as scaled, shrink-on-load exactly for a JPEG whose shrink is at least 2, the reloaded image with recomputed shrink and residual, and the no-enlarge guard leaving the image unshrunk |
| Planner.Turned | resize.go:71-81 | the raster after zoom and rotation: unchanged without zoom or quarter turn, and the sum of its sides scaled by the zoom factor |
| Planner.ShouldTransformImage | resize.go:144-147 | the geometry runs under force, for an area, and for a requested side that differs from the input's; a request for the input's own size or no size, without force or area, skips it |
| Planner.ShouldApplyEffects | resize.go:149-151 | effects run exactly when sigma or the minimum amplitude is positive |
| Planner.Reshape | resize.go:71-89 | zoom, rotate/flip and transform lists, each in order; the results satisfy `Reshaped`: the zoom as asked, exactly the rotate and flip calls of `Turning`; when shouldTransformImage holds, exactly the calls and size of `Transformation` on the zoomed and turned raster, and otherwise no call and that raster |
| Planner.SaveOptionsOf | resize.go:105-112 | quality, compression, interlacing, profile removal and interpretation are passed on, and the encoder is the one of the requested output type |
| Planner.Saving | resize.go:114-118 | the save calls end with the requested encoder; profile removal exactly when asked; the conversion to the defaulted interpretation exactly when libvips supports it; nothing else |
| Planner.Finish | resize.go:91-120 | blur exactly when asked, the watermark exactly when there is text, then exactly the calls of `Saving`: profile removal when asked, the colour-space conversion when supported, the save with the options' encoder last; the size never changes |
| Planner.Render | resize.go:71-120 | the plan built from the scaled image holds every step in pipeline order, with `Reshaped` and `Finished` |
| Planner.Process | resize.go:35-120 | a plan is a `SoundPlan`: the scaling, shrink-on-load, geometric and last steps as above, in order from the load to the save; a failure is libvips' or the request's |
| Planner.PlanOrder | resize.go:14-121 | the steps of Resize, each in order, concatenate into a plan in pipeline order |
| Planner.PlanCalls | resize.go:14-121 | in a sound plan the load comes first and the save of the requested encoder last; zoom, rotation, flips, blur, watermark and profile removal appear exactly when the request asks for them, and the colour-space conversion exactly when libvips supports it |
| Planner.StepCalls | resize.go:71-118 | the same facts for any staged plan whose steps satisfy `Reshaped` and `Finished` |
| Planner.TurnCalls | resize.go:71-81 | zoom and rotate/flip calls found anywhere in a staged plan are those the request asks for |
| Planner.FinishCalls | resize.go:91-118 | blur, watermark and save calls found anywhere in a staged plan are those the request asks for |
| Planner.SaveCalls | vips.go:255-279 | in a staged plan, profile removal and the colour-space conversion appear exactly when asked and when supported, and only to the defaulted interpretation |
| Planner.SaveSteps | vips.go:255-279 | calls of earlier steps followed by the save calls contain profile removal and the conversion exactly as the save calls do |
| Planner.NoEnlargePlan | resize.go:46-56 | under the no-enlarge guard the plan resamples nowhere and loads the input as it is; with no area, zoom or rotation the encoder receives the input |
| Planner.ForcedPlan | resize.go:153-185 | a forced resize to both sides with no offsets resamples, never embeds, and yields exactly `W x H` when the affine is exact |
| Planner.PlacedPlan | resize.go:177-241 | without force, once the geometry runs, a crop ends the transform calls with an extract and the encoder receives `min(w, W) x min(h, H)` for the resampled raster `w x h`; an embed ends them with an embed and the encoder receives exactly `W x H` |
| Planner.UntouchedPlan | resize.go:144-147 | a request for no size, force, area, zoom or rotation resamples nowhere and the encoder receives the input; without a flip nothing changes the geometry |
| Planner.Resize | resize.go:14-121 | the errors come in the source's order (empty buffer, sniffing panic, unknown format, unsupported output type); otherwise the plan is a `SoundPlan` for the decoded image and the defaulted options, and a failure is libvips' or the request's |

## Left out

- libvips primitives called through cgo (decode, shrink-on-load, shrink, affine, extract, embed, rotate, flip, zoom, blur, watermark, colour space, save): their output sizes and failures come from the `Engine` oracle, and what they do to pixels is not modelled.
- Reference counting and freeing of native handles and C strings, and `vips_thread_shutdown`. This includes the use of an image after its reference is dropped in `vipsColourspaceIsSupportedBuffer` and `vipsInterpretationBuffer`.
- `Initialize`, `Shutdown`, the global `initialized` flag with its mutex, thread locking and environment variables: process lifecycle and concurrency.
- `VipsMemory`, `VipsDebugInfo`, `vipsHasAlpha`, `vipsHasProfile`, `vipsSpace`: native queries the planner does not use.
- `vipsExifOrientation`, `vipsWindowSize`, `vipsColourspaceIsSupported`, `IsTypeSupported`, `readImageType` and the MAGICK check: foreign queries, passed in as fields of `Engine`.
- The encoded bytes: a plan ends with the save call and its encoder arguments, not with a buffer.
- IEEE float64 rounding of factor, residual and opacity: the model uses exact reals and does not claim bit-exact agreement.
- `debug(...)` logging.
- Planner.RotateAndFlipImage: when the rotation fails, the source still calls the flip, on a nil handle, and returns the flip's error. The model stops at the rotation's error.
- Planner.ShrinkJpegImage: requires shrink >= 2. For smaller values the source returns a nil image with no error, and its only caller never passes such a value.
- Planner.ImageCalculations: returns the new width and height instead of writing them into the options.
- Planner.PlacedPlan: a crop yields exactly `W x H` only when the resampled raster covers `W x H`. Whether it does depends on libvips' rounding in the shrink and the affine, and on the size shrink-on-load decodes to, which the `Engine` oracle leaves open. So that exact size is not proved.
- Planner.TransformImage: the output-size guarantee under force assumes `ExactAffine`. It also needs `Top` and `Left` to be at most 0, because otherwise the area branch runs after the affine.
- Planner.Resize: written as the stages `ReadImage`, `PlanScale`, `Reshape` and `Finish`; `Process` runs `PlanScale` and then `Render`, which runs the last two. The calls of each step are kept in their own list of the `Plan`, and `Plan.Ops` joins them. The order of calls and the branch taken at each step are those of the source.

=== FILE: base.dfy ===
/**
 * Integer helpers shared by the model: Go's truncating division and
 * remainder, and the small min/max/default helpers the source writes
 * with math.Min, math.Max and "if x == 0" defaults.
 */
module Base {

  function Min(a: int, b: int): int { if a <= b then a else b }
  function Max(a: int, b: int): int { if a >= b then a else b }
  function MinReal(a: real, b: real): real { if a <= b then a else b }
  function MaxReal(a: real, b: real): real { if a >= b then a else b }

  /** The Go idiom "if x == 0 { x = dflt }": a zero field takes a default. */
  function OrDefault(x: int, dflt: int): (r: int)
    ensures x != 0 ==> r == x
    ensures x == 0 ==> r == dflt
  {
    if x == 0 then dflt else x
  }

  /**
   * Go's integer `/` for a positive divisor: the quotient is truncated
   * toward zero, so the remainder takes the sign of the dividend.
   * Dafny's own `/` floors instead, which differs for negative dividends.
   */
  function GoDiv(a: int, b: int): (q: int)
    requires b > 0
    ensures a >= 0 ==> 0 <= a - q * b < b
    ensures a < 0 ==> -b < a - q * b <= 0
    ensures a >= 0 ==> q == a / b
  {
    if a >= 0 then a / b else -((-a) / b)
  }

  /** Go's `%` for a positive divisor: a == GoDiv(a, b) * b + GoMod(a, b). */
  function GoMod(a: int, b: int): (m: int)
    requires b > 0
    ensures a == GoDiv(a, b) * b + m
    ensures -b < m < b
    ensures a >= 0 ==> m >= 0
    ensures a <= 0 ==> m <= 0
  {
    a - GoDiv(a, b) * b
  }

  /** For a non-negative dividend, the real quotient's floor is the integer quotient. */
  lemma FloorOfQuotient(a: int, b: int)
    requires a >= 0 && b > 0
    ensures (a as real / b as real).Floor == a / b
  {
    var q, m := a / b, a % b;
    assert a == q * b + m && 0 <= m < b;
    assert a as real / b as real == q as real + m as real / b as real;
    assert 0.0 <= m as real / b as real < 1.0;
  }
}

=== FILE: geometry.dfy ===
/**
 * The geometry calculator of resize.go: crop offsets by gravity, the
 * integral pre-shrink and the fractional residual, and the JPEG
 * shrink-on-load level. Scale factors are exact reals here, where the
 * source uses float64.
 */
module Geometry {
  import opened Base
  import opened Model

  /**
   * (d + 1) / 2 under Go's truncating division: the offset that centres a
   * window d pixels narrower than the image, the odd pixel going left/top.
   */
  function CentreOffset(d: int): (c: int)
    ensures d >= 0 ==> 0 <= c <= d && 0 <= 2 * c - d <= 1
    ensures d < 0 ==> d < c <= 0
  {
    GoDiv(d + 1, 2)
  }

  /**
   * Left and top offsets of an outW x outH window in an inW x inH image,
   * anchored by the gravity.
   */
  function CalculateCrop(inW: int, inH: int, outW: int, outH: int, gravity: Gravity): (c: (int, int))
    // each compass point anchors the window to its own edge
    ensures gravity == North ==> c.1 == 0
    ensures gravity == South ==> c.1 + outH == inH
    ensures gravity == East ==> c.0 + outW == inW
    ensures gravity == West ==> c.0 == 0
    // on the other axis, and on both for the centre, the window is centred
    ensures gravity.North? || gravity.South? || gravity.Centre? ==> c.0 == CentreOffset(inW - outW)
    ensures gravity.East? || gravity.West? || gravity.Centre? ==> c.1 == CentreOffset(inH - outH)
    // a window no larger than the image lies inside it
    ensures outW <= inW ==> 0 <= c.0 <= inW - outW
    ensures outH <= inH ==> 0 <= c.1 <= inH - outH
  {
    match gravity
    case North => (CentreOffset(inW - outW), 0)
    case East => (inW - outW, CentreOffset(inH - outH))
    case South => (CentreOffset(inW - outW), inH - outH)
    case West => (0, CentreOffset(inH - outH))
    case Centre => (CentreOffset(inW - outW), CentreOffset(inH - outH))
  }

  /**
   * The crop of extractOrEmbedImage, clamped to non-negative offsets and
   * to the image's own size, never reaches outside the image, whatever
   * the requested size and gravity.
   */
  lemma CropWindowInside(inW: int, inH: int, outW: int, outH: int, gravity: Gravity)
    ensures var c := CalculateCrop(inW, inH, outW, outH, gravity);
      && 0 <= Max(c.0, 0) && Max(c.0, 0) + Min(inW, outW) <= inW
      && 0 <= Max(c.1, 0) && Max(c.1, 0) + Min(inH, outH) <= inH
  {
  }

  /**
   * Go's truncation and Dafny's flooring of (d + 1) / 2 differ only for
   * negative d, and there both are clamped to zero by the caller.
   */
  lemma ClampHidesDivisionMode(d: int)
    ensures Max(CentreOffset(d), 0) == Max((d + 1) / 2, 0)
  {
  }

  /**
   * The integral box shrink: the floor of the factor, or, for kernels wider
   * than 3 pixels, of factor * 3 / window so the affine does more work.
   */
  function CalculateShrink(factor: real, windowSize: real): (s: int)
    ensures 1 <= s <= Max(1, factor.Floor)
    ensures s == 1 || s as real <= factor
    ensures factor >= 2.0 && windowSize > 3.0 ==> s == 1 || s as real * windowSize <= 3.0 * factor
    ensures factor >= 2.0 && windowSize > 3.0 ==> 3.0 * factor < (s + 1) as real * windowSize
    ensures factor < 2.0 || windowSize <= 3.0 ==> s == Max(1, factor.Floor)
  {
    var shrink :=
      if factor >= 2.0 && windowSize > 3.0 then
        assert factor * 3.0 < factor * windowSize;
        FloorBounds(factor * 3.0, windowSize);
        (factor * 3.0 / windowSize).Floor
      else factor.Floor;
    if shrink >= 1 then shrink else 1
  }

  /** The floor of a quotient brackets the dividend between two multiples of the divisor. */
  lemma FloorBounds(x: real, w: real)
    requires w > 0.0
    ensures (x / w).Floor as real * w <= x < ((x / w).Floor + 1) as real * w
  {
    var q := x / w;
    var k := q.Floor;
    assert q * w == x;
    assert k as real <= q < (k + 1) as real;
    assert (q - k as real) * w >= 0.0;
    assert (q - k as real) * w == x - k as real * w;
    assert ((k + 1) as real - q) * w > 0.0;
    assert ((k + 1) as real - q) * w == (k + 1) as real * w - x;
    assert x < (k + 1) as real * w;
  }

  /** The fractional scale left for the affine after an integral shrink. */
  function CalculateResidual(factor: real, shrink: int): (r: real)
    requires factor > 0.0
    ensures r * factor == shrink as real
    ensures 1 <= shrink && shrink as real <= factor ==> 0.0 < r <= 1.0
    ensures shrink >= 1 && factor < 1.0 ==> r > 1.0
  {
    shrink as real / factor
  }

  /**
   * Downscaling (factor >= 1) leaves a residual in (0, 1]: the integral
   * shrink never overshoots the requested reduction.
   */
  lemma ResidualIsDownscale(factor: real, windowSize: real)
    requires factor >= 1.0
    ensures 0.0 < CalculateResidual(factor, CalculateShrink(factor, windowSize)) <= 1.0
  {
  }

  /** The JPEG shrink-on-load level: the largest of 8, 4, 2 not above shrink, else 1. */
  function JpegShrinkLevel(shrink: int): (level: int)
    ensures level == 1 || level == 2 || level == 4 || level == 8
    ensures shrink < 2 <==> level == 1
    ensures shrink >= 2 ==> level <= shrink
    ensures level < 8 ==> shrink < 2 * level
  {
    if shrink >= 8 then 8
    else if shrink >= 4 then 4
    else if shrink >= 2 then 2
    else 1
  }

  /**
   * After JPEG shrink-on-load at level L, Resize recomputes the factor as
   * max(factor / L, 1), the shrink as its floor and the residual as
   * shrink / factor. When the first shrink did not exceed the factor, the
   * two stages together never reduce by more than the factor, and the
   * residual stays a downscale.
   */
  lemma JpegPreShrinkNeverOvershoots(factor: real, shrink: int)
    requires 2 <= shrink && shrink as real <= factor
    ensures var level := JpegShrinkLevel(shrink);
      var f := MaxReal(factor / level as real, 1.0);
      && f == factor / level as real
      && 1 <= f.Floor
      && (level * f.Floor) as real <= factor
      && 0.0 < f.Floor as real / f <= 1.0
  {
    var level := JpegShrinkLevel(shrink);
    var f := factor / level as real;
    assert level as real <= factor;
    assert f >= 1.0 by {
      assert f * level as real == factor;
    }
    assert f.Floor as real <= f;
    assert (level * f.Floor) as real == level as real * f.Floor as real;
    assert level as real * f.Floor as real <= level as real * f;
  }
}

=== FILE: model.dfy ===
/**
 * The data the planner works on: the request options, the abstract raster
 * (only its size matters to planning), the operations handed to libvips,
 * and libvips itself as an oracle whose answers are parameters.
 */
module Model {
  import opened Base

  type byte = b: int | 0 <= b < 256

  /** The image containers bimg knows; the zero value of the Go enumeration is UNKNOWN. */
  datatype ImageType = Unknown | Jpeg | Webp | Png | Tiff | Magick

  /** Crop anchor; every value other than the four compass points behaves as the centre. */
  datatype Gravity = Centre | North | East | South | West

  datatype Direction = Horizontal | Vertical

  datatype Color = Color(r: int, g: int, b: int)

  datatype Watermark = Watermark(
    text: string,
    font: string,
    width: int,
    dpi: int,
    margin: int,
    opacity: real,
    noReplicate: bool,
    background: Color)

  datatype GaussianBlur = GaussianBlur(sigma: real, minAmpl: real)

  /** The caller's request. Angles are degrees; the Angle constants D0..D270 are 0, 90, 180, 270. */
  datatype Options = Options(
    width: int,
    height: int,
    areaWidth: int,
    areaHeight: int,
    top: int,
    left: int,
    quality: int,
    compression: int,
    zoom: int,
    crop: bool,
    enlarge: bool,
    embed: bool,
    flip: bool,
    flop: bool,
    force: bool,
    noAutoRotate: bool,
    noProfile: bool,
    interlace: bool,
    extend: int,
    rotate: int,
    gravity: Gravity,
    watermark: Watermark,
    imageType: ImageType,
    interpolator: int,
    interpretation: int,
    gaussianBlur: GaussianBlur)

  /** Constants defined outside the modelled files: QUALITY, sRGB, MAX_SIZE, WATERMARK_FONT. */
  datatype Defaults = Defaults(quality: int, srgb: int, maxSize: int, font: string)

  datatype Size = Size(width: int, height: int)

  /** A decoded libvips image, known to the planner only by its dimensions. */
  type Raster = s: Size | s.width >= 1 && s.height >= 1 witness Size(1, 1)

  /** The three encoders vipsSave can call, with the arguments it passes. */
  datatype Encoder =
    | WebpSave(quality: int)
    | PngSave(compression: int, quality: int, interlace: int)
    | JpegSave(quality: int, interlace: int)

  /** One call into libvips. */
  datatype Op =
    | Load(kind: ImageType)
    | ShrinkOnLoad(level: int)
    | Zoom(factor: int)
    | Rotate(angle: int)
    | Flip(direction: Direction)
    | Shrink(factor: int)
    | Affine(scaleX: real, scaleY: real, interpolator: int)
    | Extract(left: int, top: int, width: int, height: int)
    | Embed(left: int, top: int, width: int, height: int, extend: int)
    | Blur(sigma: real, minAmpl: real)
    | Mark(mark: Watermark)
    | RemoveProfile
    | Colourspace(interpretation: int)
    | Save(encoder: Encoder)
  {
    /** Operations that change the geometry of the raster. */
    predicate Reshapes() {
      ShrinkOnLoad? || Zoom? || Rotate? || Flip? || Shrink? || Affine? || Extract? || Embed?
    }

    /** Operations that resample: integral shrink, JPEG shrink-on-load, affine. */
    predicate Resamples() {
      ShrinkOnLoad? || Shrink? || Affine?
    }

    /**
     * The position of the call in Resize's pipeline: load, shrink-on-load,
     * zoom, rotate, flip, shrink, affine, extract or embed, blur,
     * watermark, profile removal, colour space, save.
     */
    function Rank(): nat {
      match this
      case Load(_) => 0
      case ShrinkOnLoad(_) => 1
      case Zoom(_) => 2
      case Rotate(_) => 3
      case Flip(_) => 4
      case Shrink(_) => 5
      case Affine(_, _, _) => 6
      case Extract(_, _, _, _) => 7
      case Embed(_, _, _, _, _) => 7
      case Blur(_, _) => 8
      case Mark(_) => 9
      case RemoveProfile => 10
      case Colourspace(_) => 11
      case Save(_) => 12
    }
  }

  /** The calls come in pipeline order. */
  predicate Ordered(ops: seq<Op>) {
    |ops| <= 1 || (ops[0].Rank() <= ops[1].Rank() && Ordered(ops[1..]))
  }

  /** Every call belongs to the pipeline steps lo..hi. */
  predicate Within(ops: seq<Op>, lo: nat, hi: nat) {
    forall op <- ops :: lo <= op.Rank() <= hi
  }

  /** Two ordered lists, the first ending where the second starts, make an ordered list. */
  lemma OrderedAppend(a: seq<Op>, b: seq<Op>, lo: nat, mid: nat, hi: nat)
    requires lo <= mid <= hi
    requires Ordered(a) && Within(a, lo, mid)
    requires Ordered(b) && Within(b, mid, hi)
    ensures Ordered(a + b) && Within(a + b, lo, hi)
  {
    if a == [] {
      assert a + b == b;
    } else {
      OrderedAppend(a[1..], b, lo, mid, hi);
      assert (a + b)[1..] == a[1..] + b;
      if |a| == 1 && |b| > 0 {
        assert a[0] in a && b[0] in b;
        assert (a + b)[1] == b[0];
      } else if |a| > 1 {
        assert (a + b)[1] == a[1];
      }
    }
    assert forall op <- a + b :: op in a || op in b;
  }

  datatype Failure =
    | EmptyBuffer            // "Image buffer is empty"
    | IndexPanic             // vipsImageType indexes past the end of a short buffer
    | UnsupportedFormat      // "Unsupported image format"
    | UnsupportedOutputType  // "Unsupported image output type"
    | MissingAreaParams      // "Extract area width/height params are required"
    | MaxSizeExceeded        // "Maximum image size exceeded"
    | EngineFault(op: Op)    // libvips reported an error for this call

  datatype Result<+T> = Ok(value: T) | Err(error: Failure)

  /**
   * What libvips answers during one call: the sizes it produces where the
   * size is its own business, whether a call fails, and the native queries.
   */
  datatype Engine = Engine(
    decoded: Raster,                          // vips_init_image
    decodeFails: bool,
    jpegDecoded: int -> Raster,               // vips_jpegload_buffer_shrink, by level
    shrunk: (Raster, int) -> Raster,          // vips_shrink
    resampled: (Raster, real, real) -> Raster, // vips_affine
    fails: (Raster, Op) -> bool,              // the call on this input reports an error
    exifOrientation: int,                     // vips_exif_orientation
    windowSize: int -> real,                  // interpolator_window_size
    colourspaceSupported: bool,               // vips_colourspace_issupported
    magickLoader: bool,                       // MAGICK support and a *MagickBuffer loader matches
    typeSupported: ImageType -> bool)         // IsTypeSupported

  /**
   * An affine resample of `r` by (sx, sy) is exact when the scaled size is
   * a whole number: every rounding rule libvips might use agrees on integers.
   */
  predicate ExactAt(e: Engine, r: Raster, sx: real, sy: real) {
    var w, h := r.width as real * sx, r.height as real * sy;
    (w.Floor as real == w && w >= 1.0 ==> e.resampled(r, sx, sy).width == w.Floor) &&
    (h.Floor as real == h && h >= 1.0 ==> e.resampled(r, sx, sy).height == h.Floor)
  }

  /** The affine resample of this engine is exact at every raster and scale. */
  ghost predicate ExactAffine(e: Engine) {
    forall r: Raster, sx: real, sy: real :: ExactAt(e, r, sx, sy)
  }

  /** An engine none of whose calls reports an error of its own. */
  ghost predicate Reliable(e: Engine) {
    forall r: Raster, op: Op :: !e.fails(r, op)
  }

  /**
   * Whether libvips accepts the call's geometry: a zoom by at least 1, a
   * non-empty extract inside the image, a non-empty embed canvas.
   */
  predicate Fits(image: Raster, op: Op) {
    match op
    case Zoom(k) => k >= 1
    case Extract(left, top, width, height) =>
      width >= 1 && height >= 1 && left >= 0 && top >= 0
      && left + width <= image.width && top + height <= image.height
    case Embed(_, _, width, height, _) => width >= 1 && height >= 1
    case _ => true
  }

  /**
   * The result of one libvips call on `image`. Calls whose output size is
   * fixed by their arguments produce that size; the others take it from
   * the engine. Profile removal reports no error.
   */
  function Apply(e: Engine, image: Raster, op: Op): (r: Result<Raster>)
    ensures r.Err? ==> r.error == EngineFault(op)
    ensures r.Err? <==> !op.RemoveProfile? && (e.fails(image, op) || !Fits(image, op))
    ensures r.Ok? && !op.Reshapes() ==> r.value == image
  {
    if op.RemoveProfile? then Ok(image)
    else if e.fails(image, op) || !Fits(image, op) then Err(EngineFault(op))
    else match op
      case ShrinkOnLoad(level) => Ok(e.jpegDecoded(level))
      case Zoom(k) => Ok(Size(image.width * k, image.height * k))
      case Rotate(angle) =>
        if angle == 90 || angle == 270 then Ok(Size(image.height, image.width)) else Ok(image)
      case Shrink(factor) => Ok(e.shrunk(image, factor))
      case Affine(sx, sy, _) => Ok(e.resampled(image, sx, sy))
      case Extract(_, _, width, height) => Ok(Size(width, height))
      case Embed(_, _, width, height, _) => Ok(Size(width, height))
      case _ => Ok(image)
  }
}

=== FILE: orientation.dfy ===
/**
 * The orientation resolver of resize.go: normalising a requested angle and
 * reading the EXIF orientation into a rotation and a flip.
 */
module Orientation {
  import opened Base

  /**
   * A requested angle rounded toward zero to a multiple of 90 (Go's `%`),
   * then capped at 270.
   */
  function GetAngle(angle: int): (r: int)
    ensures r <= 270 && r % 90 == 0
    ensures angle >= 0 ==> 0 <= r <= angle && (r == 270 || angle < r + 90)
    ensures angle < 0 ==> angle <= r <= 0 && r < angle + 90
  {
    var divisor := GoMod(angle, 90);
    var a := if divisor != 0 then angle - divisor else angle;
    if a <= 270 then a else 270
  }

  /** Normalising an already normalised angle changes nothing. */
  lemma GetAngleIdempotent(angle: int)
    ensures GetAngle(GetAngle(angle)) == GetAngle(angle)
  {
    var r := GetAngle(angle);
    var k := r / 90;
    assert r == 90 * k;
    var q := GoDiv(r, 90);
    assert r == q * 90 + GoMod(r, 90);
    assert GoMod(r, 90) == 90 * (k - q);
    assert GoMod(r, 90) == 0;
  }

  /** The angles Resize hands to libvips are the four right angles. */
  lemma GetAngleValues(angle: int)
    requires angle > 0
    ensures var r := GetAngle(angle); r == 0 || r == 90 || r == 180 || r == 270
    ensures GetAngle(370) == 270 && GetAngle(45) == 0 && GetAngle(180) == 180
  {
  }

  /**
   * The rotation and flip EXIF asks for; an explicitly requested angle
   * (angle > 0) switches EXIF off.
   */
  function CalculateRotationAndFlip(angle: int, orientation: int): (r: (int, bool))
    ensures angle > 0 ==> r == (0, false)
    // the unmirrored orientations: 6, 3 and 8 are quarter, half and three-quarter turns
    ensures angle <= 0 && orientation == 6 ==> r == (90, false)
    ensures angle <= 0 && orientation == 3 ==> r == (180, false)
    ensures angle <= 0 && orientation == 8 ==> r == (270, false)
    ensures angle <= 0 && orientation == 1 ==> r == (0, false)
    ensures r.0 == 0 || r.0 == 90 || r.0 == 180 || r.0 == 270
    ensures r.1 <==> angle <= 0 && (orientation == 2 || orientation == 4 || orientation == 5 || orientation == 7)
    ensures r.0 != 0 <==> angle <= 0 && 3 <= orientation <= 8
    ensures angle <= 0 && (orientation < 1 || orientation > 8) ==> r == (0, false)
  {
    if angle > 0 then (0, false)
    else if orientation == 6 then (90, false)
    else if orientation == 3 then (180, false)
    else if orientation == 8 then (270, false)
    else if orientation == 2 then (0, true)
    else if orientation == 7 then (90, true)
    else if orientation == 4 then (180, true)
    else if orientation == 5 then (270, true)
    else (0, false)
  }

  /** EXIF's unmirrored partner of each orientation: 2 of 1, 7 of 6, 4 of 3, 5 of 8. */
  function Unmirrored(orientation: int): int {
    if orientation == 2 then 1
    else if orientation == 7 then 6
    else if orientation == 4 then 3
    else if orientation == 5 then 8
    else orientation
  }

  /**
   * Each mirrored EXIF orientation is its unmirrored partner followed by a
   * horizontal flip, as the EXIF standard defines them.
   */
  lemma MirroredOrientations(angle: int, orientation: int)
    requires angle <= 0
    ensures var m, u := CalculateRotationAndFlip(angle, orientation), CalculateRotationAndFlip(angle, Unmirrored(orientation));
      m.0 == u.0 && !u.1 && (m.1 <==> orientation != Unmirrored(orientation))
  {
  }
}

=== FILE: planner.dfy ===
/**
 * The operation planner of resize.go. Resize and its helpers are written as
 * methods that, like the Go code, reassign the image, the scale variables
 * and their own copy of the options step by step. Each libvips call is
 * recorded as an Op in the returned list, and its effect on the raster
 * comes from Model.Apply.
 */
module Planner {
  import opened Base
  import opened Model
  import opened Geometry
  import opened Orientation
  import opened Vips

  /** PNG compression level used when the request leaves it at zero. */
  const DEFAULT_COMPRESSION := 6
  /** Watermark resolution used when the request leaves it at zero. */
  const WATERMARK_DPI := 150
  /** Watermark opacity used when the request leaves it at zero. */
  const WATERMARK_OPACITY := 0.25

  /** Every field applyDefaults fills holds a non-zero value. */
  predicate Defaulted(o: Options) {
    o.quality != 0 && o.compression != 0 && o.imageType != Unknown && o.interpretation != 0
  }

  /**
   * The options after applyDefaults: each zero field among quality,
   * compression, output type and interpretation takes its default, and
   * nothing else changes.
   */
  function WithDefaults(o: Options, imageType: ImageType, d: Defaults): (o': Options)
    ensures o'.quality == OrDefault(o.quality, d.quality)
    ensures o'.compression == OrDefault(o.compression, DEFAULT_COMPRESSION)
    ensures o'.imageType == if o.imageType == Unknown then imageType else o.imageType
    ensures o'.interpretation == OrDefault(o.interpretation, d.srgb)
    ensures o' == o.(quality := o'.quality, compression := o'.compression,
                     imageType := o'.imageType, interpretation := o'.interpretation)
    // a second application finds nothing left to fill
    ensures Defaulted(o) ==> o' == o
    ensures d.quality != 0 && d.srgb != 0 && imageType != Unknown ==> Defaulted(o')
  {
    o.(quality := OrDefault(o.quality, d.quality),
       compression := OrDefault(o.compression, DEFAULT_COMPRESSION),
       imageType := if o.imageType == Unknown then imageType else o.imageType,
       interpretation := OrDefault(o.interpretation, d.srgb))
  }

  /** applyDefaults, field by field as the source fills them. */
  method ApplyDefaults(o: Options, imageType: ImageType, d: Defaults) returns (o': Options)
    ensures o' == WithDefaults(o, imageType, d)
  {
    var quality, compression, kind, interpretation := o.quality, o.compression, o.imageType, o.interpretation;
    if quality == 0 {
      quality := d.quality;
    }
    if compression == 0 {
      compression := DEFAULT_COMPRESSION;
    }
    if kind == Unknown {
      kind := imageType;
    }
    if interpretation == 0 {
      interpretation := d.srgb;
    }
    assert quality == OrDefault(o.quality, d.quality);
    assert compression == OrDefault(o.compression, DEFAULT_COMPRESSION);
    assert interpretation == OrDefault(o.interpretation, d.srgb);
    assert kind == WithDefaults(o, imageType, d).imageType;
    o' := o.(quality := quality, compression := compression, imageType := kind, interpretation := interpretation);
  }

  /** A plain resize request: no mode flag, no rotation, and some dimension given. */
  predicate ForceImplied(o: Options) {
    !o.crop && !o.embed && !o.enlarge && o.rotate == 0 && (o.width > 0 || o.height > 0)
  }

  /**
   * normalizeOperation: a plain resize request is turned into a forced
   * resize to the requested size. Only `force` can change, and only from
   * false to true.
   */
  method NormalizeOperation(o: Options) returns (o': Options)
    ensures o'.force <==> o.force || ForceImplied(o)
    ensures o' == o.(force := o'.force)
    ensures o.force ==> o'.force
    // idempotent: the result is no longer a plain request without force
    ensures o'.force || !ForceImplied(o')
  {
    o' := o;
    if !o'.force && !o'.crop && !o'.embed && !o'.enlarge && o'.rotate == 0 && (o'.width > 0 || o'.height > 0) {
      o' := o'.(force := true);
    }
  }

  /**
   * shouldTransformImage: whether the geometry stage runs at all. It runs
   * under force, for an area, and for a requested side that differs from
   * the input's; a request for the input's own size, or for no size, with
   * neither force nor area skips it.
   */
  predicate ShouldTransformImage(o: Options, inWidth: int, inHeight: int): (b: bool)
    ensures o.force || o.areaWidth > 0 || o.areaHeight > 0 ==> b
    ensures o.width > 0 && o.width != inWidth ==> b
    ensures o.height > 0 && o.height != inHeight ==> b
    ensures !o.force && o.areaWidth <= 0 && o.areaHeight <= 0 && o.width in {0, inWidth} && o.height in {0, inHeight} ==> !b
  {
    o.force || (o.width > 0 && o.width != inWidth) ||
    (o.height > 0 && o.height != inHeight) || o.areaWidth > 0 || o.areaHeight > 0
  }

  /** shouldApplyEffects: a blur is asked for, by a positive sigma or a positive minimum amplitude. */
  predicate ShouldApplyEffects(o: Options): (b: bool)
    ensures o.gaussianBlur.sigma > 0.0 ==> b
    ensures o.gaussianBlur.minAmpl > 0.0 ==> b
    ensures o.gaussianBlur.sigma <= 0.0 && o.gaussianBlur.minAmpl <= 0.0 ==> !b
  {
    o.gaussianBlur.sigma > 0.0 || o.gaussianBlur.minAmpl > 0.0
  }

  /** The output size imageCalculations settles on, and the factor (input over output) it scales by. */
  datatype Target = Target(width: int, height: int, factor: real)

  /**
   * The target of imageCalculations: for both dimensions the requested box,
   * for one the other side in proportion, for neither the input itself.
   */
  function ImageTarget(o: Options, inWidth: int, inHeight: int): (t: Target)
    requires inWidth >= 1 && inHeight >= 1
    ensures t.factor > 0.0
    ensures t.width >= 0 && t.height >= 0
    // both dimensions: crop scales so the image covers the box, fit so it lies inside it
    ensures o.width > 0 && o.height > 0 ==> t.width == o.width && t.height == o.height
    ensures o.width > 0 && o.height > 0 ==>
      ScalesTo(t.factor, o.width, inWidth) || ScalesTo(t.factor, o.height, inHeight)
    ensures o.width > 0 && o.height > 0 && o.crop ==> Covers(t.factor, inWidth, inHeight, o.width, o.height)
    ensures o.width > 0 && o.height > 0 && !o.crop ==> FitsIn(t.factor, inWidth, inHeight, o.width, o.height)
    // one dimension: the other keeps the aspect ratio, rounded down
    ensures o.width > 0 && o.height <= 0 ==>
      && ScalesTo(t.factor, o.width, inWidth) && t.width == o.width
      && t.height * inWidth <= inHeight * o.width < (t.height + 1) * inWidth
    ensures o.width <= 0 && o.height > 0 ==>
      && ScalesTo(t.factor, o.height, inHeight) && t.height == o.height
      && t.width * inHeight <= inWidth * o.height < (t.width + 1) * inHeight
    // neither: the identity
    ensures o.width <= 0 && o.height <= 0 ==> t == Target(inWidth, inHeight, 1.0)
  {
    if o.width > 0 && o.height > 0 then
      Target(o.width, o.height, BoxFactor(inWidth, inHeight, o.width, o.height, o.crop))
    else if o.width > 0 then
      Target(o.width, AspectSide(inWidth, inHeight, o.width), Ratio(inWidth, o.width))
    else if o.height > 0 then
      Target(AspectSide(inHeight, inWidth, o.height), o.height, Ratio(inHeight, o.height))
    else
      Target(inWidth, inHeight, 1.0)
  }

  /**
   * imageCalculations, branch by branch. The source writes width and
   * height back into the options; here they are returned.
   */
  method ImageCalculations(o: Options, inWidth: int, inHeight: int) returns (width: int, height: int, factor: real)
    requires inWidth >= 1 && inHeight >= 1
    ensures Target(width, height, factor) == ImageTarget(o, inWidth, inHeight)
  {
    width, height := o.width, o.height;
    factor := 1.0;
    if o.width > 0 && o.height > 0 {
      factor := BoxFactor(inWidth, inHeight, o.width, o.height, o.crop);
    } else if o.width > 0 {
      factor := Ratio(inWidth, o.width);
      height := AspectSide(inWidth, inHeight, o.width);
    } else if o.height > 0 {
      factor := Ratio(inHeight, o.height);
      width := AspectSide(inHeight, inWidth, o.height);
    } else {
      width, height := inWidth, inHeight;
    }
  }

  /** Scaling `part` by `f` gives `whole`. */
  predicate ScalesTo(f: real, part: int, whole: int) {
    f * part as real == whole as real
  }

  /** Reduced by `f`, the input covers the width x height box. */
  predicate Covers(f: real, inWidth: int, inHeight: int, width: int, height: int) {
    f * width as real <= inWidth as real && f * height as real <= inHeight as real
  }

  /** Reduced by `f`, the input fits inside the width x height box. */
  predicate FitsIn(f: real, inWidth: int, inHeight: int, width: int, height: int) {
    f * width as real >= inWidth as real && f * height as real >= inHeight as real
  }

  /** Go's float64(whole) / float64(part): the factor by which `part` is scaled to `whole`. */
  function Ratio(whole: int, part: int): (f: real)
    requires whole >= 1 && part >= 1
    ensures f > 0.0 && ScalesTo(f, part, whole)
  {
    whole as real / part as real
  }

  /**
   * The factor for a box: the smaller of the two ratios makes the scaled
   * image cover the box (crop), the larger makes it fit inside; either way
   * one side matches exactly.
   */
  function BoxFactor(inWidth: int, inHeight: int, width: int, height: int, crop: bool): (f: real)
    requires inWidth >= 1 && inHeight >= 1 && width >= 1 && height >= 1
    ensures f > 0.0
    ensures ScalesTo(f, width, inWidth) || ScalesTo(f, height, inHeight)
    ensures crop ==> Covers(f, inWidth, inHeight, width, height)
    ensures !crop ==> FitsIn(f, inWidth, inHeight, width, height)
  {
    var xfactor := Ratio(inWidth, width);
    var yfactor := Ratio(inHeight, height);
    assert xfactor <= yfactor ==> xfactor * height as real <= inHeight as real && yfactor * width as real >= inWidth as real;
    assert yfactor <= xfactor ==> yfactor * width as real <= inWidth as real && xfactor * height as real >= inHeight as real;
    if crop then MinReal(xfactor, yfactor) else MaxReal(xfactor, yfactor)
  }

  /**
   * The side a one-dimension request fills in: with factor = side / out,
   * other / factor rounded down, which keeps the aspect ratio.
   */
  function AspectSide(side: int, other: int, out: int): (r: int)
    requires side >= 1 && other >= 1 && out >= 1
    ensures r == (other * out) / side
    ensures r >= 0
    ensures r * side <= other * out < (r + 1) * side
  {
    var factor := Ratio(side, out);
    KeepAspect(side, other, out);
    (other as real / factor).Floor
  }

  /**
   * Scaling by the ratio of one side keeps the aspect ratio: the other
   * side becomes other * out / side, rounded down.
   */
  lemma KeepAspect(side: int, other: int, out: int)
    requires side >= 1 && other >= 1 && out >= 1
    ensures (other as real / Ratio(side, out)).Floor == (other * out) / side
    ensures (other * out) / side >= 0
  {
    var f := Ratio(side, out);
    assert other as real / f == (other * out) as real / side as real by {
      assert (other as real / f) * side as real == other as real * out as real;
    }
    FloorOfQuotient(other * out, side);
    assert other * out >= 0;
  }

  /**
   * shrinkJpegImage, for the shrink >= 2 its caller guarantees: reload the
   * JPEG with libjpeg's shrink-on-load at the largest level of 8, 4, 2 not
   * above the shrink, and divide the factor by that level.
   */
  method ShrinkJpegImage(e: Engine, image: Raster, factor: real, shrink: int)
    returns (r: Result<Raster>, factor': real, ops: seq<Op>)
    requires shrink >= 2
    ensures var level := JpegShrinkLevel(shrink);
      && ops == [ShrinkOnLoad(level)]
      && factor' == factor / level as real
      && factor' * level as real == factor
      && (level == 2 || level == 4 || level == 8)
      && level <= shrink && (level == 8 || shrink < 2 * level)
      && (r.Ok? ==> r.value == e.jpegDecoded(level))
      && (r.Err? ==> r.error == EngineFault(ShrinkOnLoad(level)))
      && (r.Err? <==> e.fails(image, ShrinkOnLoad(level)))
  {
    var level := 1;
    factor' := factor;
    if shrink >= 8 {
      factor' := factor / 8.0;
      level := 8;
    } else if shrink >= 4 {
      factor' := factor / 4.0;
      level := 4;
    } else if shrink >= 2 {
      factor' := factor / 2.0;
      level := 2;
    }
    var op := ShrinkOnLoad(level);
    ops := [op];
    r := Apply(e, image, op);
  }

  /**
   * The residual shrinkImage recomputes from the shrunk raster `s`: scaled
   * by it, the raster covers the requested box under crop and fits inside
   * it otherwise, one side matching exactly.
   */
  function ShrinkResidual(o: Options, s: Raster): (res: real)
    ensures res * s.width as real == o.width as real || res * s.height as real == o.height as real
    ensures o.crop ==> res * s.width as real >= o.width as real && res * s.height as real >= o.height as real
    ensures !o.crop ==> res * s.width as real <= o.width as real && res * s.height as real <= o.height as real
  {
    var residualx := o.width as real / s.width as real;
    var residualy := o.height as real / s.height as real;
    assert residualx * s.width as real == o.width as real;
    assert residualy * s.height as real == o.height as real;
    if o.crop then MaxReal(residualx, residualy) else MinReal(residualx, residualy)
  }

  /** shrinkImage: the integral box shrink, then the residual recomputed from the shrunk size. */
  method ShrinkImage(e: Engine, image: Raster, o: Options, shrink: int)
    returns (r: Result<Raster>, residual: real, ops: seq<Op>)
    ensures ops == [Shrink(shrink)]
    ensures r.Err? ==> r.error == EngineFault(Shrink(shrink)) && residual == 0.0
    ensures r.Ok? ==> r.value == e.shrunk(image, shrink) && residual == ShrinkResidual(o, r.value)
    ensures r.Err? <==> e.fails(image, Shrink(shrink))
  {
    var op := Shrink(shrink);
    ops := [op];
    r := Apply(e, image, op);
    if r.Err? {
      residual := 0.0;
      return;
    }
    var s := r.value;
    var residualx := o.width as real / s.width as real;
    var residualy := o.height as real / s.height as real;
    if o.crop {
      residual := MaxReal(residualx, residualy);
    } else {
      residual := MinReal(residualx, residualy);
    }
  }

  /**
   * Whether the crop, embed or area step of a request can be carried out
   * on any raster: a crop box of 1 to maxSize pixels a side, a non-empty
   * embed canvas, and no area offsets otherwise. Force switches crop and
   * embed off, as transformImage does.
   */
  predicate Placeable(o: Options, maxSize: int) {
    if o.crop && !o.force then 1 <= o.width <= maxSize && 1 <= o.height <= maxSize
    else if o.embed && !o.force then o.width >= 1 && o.height >= 1
    else o.top <= 0 && o.left <= 0
  }

  /**
   * The failures a request provokes before libvips is called: the area
   * step without its parameters, or a crop or area over the size limit.
   * Force switches the crop off, so then only the area can exceed it.
   */
  predicate Refused(o: Options, f: Failure) {
    || (f == MissingAreaParams && (o.top > 0 || o.left > 0))
    || (f == MaxSizeExceeded && ((o.crop && !o.force) || o.top > 0 || o.left > 0))
  }

  /**
   * The call extractOrEmbedImage makes on success and the size it then
   * yields: the crop window, the embed canvas or the request's area, and
   * no call at all otherwise. The area height defaults to the requested
   * height; a zero area width or height never gets this far.
   */
  function Placement(image: Raster, o: Options): (p: (seq<Op>, Size))
    ensures |p.0| <= 1
    // the result is the call's own size, or the image itself when nothing is called
    ensures p.0 == [] <==> !o.crop && !o.embed && o.top <= 0 && o.left <= 0
    ensures p.0 == [] ==> p.1 == image
    ensures p.0 != [] ==> (p.0[0].Extract? || p.0[0].Embed?) && p.1 == Size(p.0[0].width, p.0[0].height)
    // crop: a window inside the image, the requested box cut down to the image
    ensures o.crop ==>
      && p.0[0].Extract? && p.1 == Size(Min(image.width, o.width), Min(image.height, o.height))
      && 0 <= p.0[0].left && p.0[0].left + p.1.width <= image.width
      && 0 <= p.0[0].top && p.0[0].top + p.1.height <= image.height
    // embed: a canvas of the requested size with the image centred on it
    ensures !o.crop && o.embed ==>
      && p.0[0].Embed? && p.0[0].extend == o.extend && p.1 == Size(o.width, o.height)
      && -1 <= (o.width - image.width) - 2 * p.0[0].left <= 1
      && -1 <= (o.height - image.height) - 2 * p.0[0].top <= 1
    // area: the requested offsets and area
    ensures !o.crop && !o.embed && (o.top > 0 || o.left > 0) ==>
      p.0 == [Extract(o.left, o.top, o.areaWidth, OrDefault(o.areaHeight, o.height))]
  {
    if o.crop then
      var c := CalculateCrop(image.width, image.height, o.width, o.height, o.gravity);
      CropWindowInside(image.width, image.height, o.width, o.height, o.gravity);
      var width, height := Min(image.width, o.width), Min(image.height, o.height);
      ([Extract(Max(c.0, 0), Max(c.1, 0), width, height)], Size(width, height))
    else if o.embed then
      ([Embed(GoDiv(o.width - image.width, 2), GoDiv(o.height - image.height, 2), o.width, o.height, o.extend)],
       Size(o.width, o.height))
    else if o.top > 0 || o.left > 0 then
      var areaHeight := OrDefault(o.areaHeight, o.height);
      ([Extract(o.left, o.top, o.areaWidth, areaHeight)], Size(o.areaWidth, areaHeight))
    else ([], image)
  }

  /**
   * extractOrEmbedImage: crop wins over embed, embed over an explicit area;
   * with none of them the image is returned as it is. The area branch is
   * modelled as written: when no area width is given it sets the area
   * height to the width instead, so that branch always fails.
   */
  method ExtractOrEmbedImage(e: Engine, image: Raster, o: Options, maxSize: int)
    returns (r: Result<Raster>, ops: seq<Op>)
    // crop: the requested box, cut down to the image, at the gravity's offsets clamped to the image
    ensures o.crop ==>
      var c := CalculateCrop(image.width, image.height, o.width, o.height, o.gravity);
      var left, top := Max(c.0, 0), Max(c.1, 0);
      var width, height := Min(image.width, o.width), Min(image.height, o.height);
      && 0 <= left && left + width <= image.width && 0 <= top && top + height <= image.height
      && ops == (if width > maxSize || height > maxSize then [] else [Extract(left, top, width, height)])
      && (r.Ok? ==> r.value == Size(width, height))
      && (r.Err? && o.width >= 1 && o.height >= 1 ==>
            r.error == MaxSizeExceeded || e.fails(image, Extract(left, top, width, height)))
    // embed: a canvas of exactly the requested size, the image centred on it
    ensures !o.crop && o.embed ==>
      var left, top := GoDiv(o.width - image.width, 2), GoDiv(o.height - image.height, 2);
      && ops == [Embed(left, top, o.width, o.height, o.extend)]
      && -1 <= (o.width - image.width) - 2 * left <= 1
      && -1 <= (o.height - image.height) - 2 * top <= 1
      && (r.Ok? ==> r.value == Size(o.width, o.height))
    // area: never reached with a zero area width
    ensures !o.crop && !o.embed && (o.top > 0 || o.left > 0) && o.areaWidth == 0 ==>
      r == Err(MissingAreaParams) && ops == []
    ensures !o.crop && !o.embed && (o.top > 0 || o.left > 0) && o.areaWidth != 0 ==>
      var areaHeight := OrDefault(o.areaHeight, o.height);
      && (areaHeight == 0 ==> r == Err(MissingAreaParams) && ops == [])
      && (areaHeight != 0 ==> (r, ops) == VipsExtract(e, image, o.left, o.top, o.areaWidth, areaHeight, maxSize))
    // nothing to do
    ensures !o.crop && !o.embed && o.top <= 0 && o.left <= 0 ==> r == Ok(image) && ops == []
    ensures |ops| <= 1 && forall op <- ops :: op.Extract? || op.Embed?
    // a failure is the call's own or the request's; a placeable request on a reliable engine succeeds
    ensures r.Err? ==>
      || (ops != [] && r.error == EngineFault(ops[0]))
      || (r.error == MissingAreaParams && !o.crop && !o.embed && (o.top > 0 || o.left > 0))
      || (r.error == MaxSizeExceeded && (o.crop || (!o.embed && (o.top > 0 || o.left > 0))))
    ensures Reliable(e) && (o.force ==> !o.crop && !o.embed) && Placeable(o, maxSize) ==> r.Ok?
    // on success, exactly the call and the size the placement names
    ensures r.Ok? ==> ops == Placement(image, o).0 && r.value == Placement(image, o).1
  {
    var inWidth, inHeight := image.width, image.height;
    r, ops := Ok(image), [];
    if o.crop {
      var width := Min(inWidth, o.width);
      var height := Min(inHeight, o.height);
      var left, top := CalculateCrop(inWidth, inHeight, o.width, o.height, o.gravity).0,
                       CalculateCrop(inWidth, inHeight, o.width, o.height, o.gravity).1;
      left, top := Max(left, 0), Max(top, 0);
      CropWindowInside(inWidth, inHeight, o.width, o.height, o.gravity);
      r, ops := VipsExtract(e, image, left, top, width, height, maxSize).0,
                VipsExtract(e, image, left, top, width, height, maxSize).1;
    } else if o.embed {
      var left, top := GoDiv(o.width - inWidth, 2), GoDiv(o.height - inHeight, 2);
      var op := Embed(left, top, o.width, o.height, o.extend);
      ops := [op];
      r := Apply(e, image, op);
    } else if o.top > 0 || o.left > 0 {
      // the request's own area fields, as this copy of the options updates them
      var areaWidth, areaHeight := o.areaWidth, o.areaHeight;
      if areaWidth == 0 {
        areaHeight := o.width;
      }
      if areaHeight == 0 {
        areaHeight := o.height;
      }
      if areaWidth == 0 || areaHeight == 0 {
        return Err(MissingAreaParams), [];
      }
      r, ops := VipsExtract(e, image, o.left, o.top, areaWidth, areaHeight, maxSize).0,
                VipsExtract(e, image, o.left, o.top, areaWidth, areaHeight, maxSize).1;
    }
  }

  /** An exact resample whose scaled size is a whole target lands on the target. */
  lemma ExactAtTarget(e: Engine, image: Raster, sx: real, sy: real, width: int, height: int)
    requires ExactAt(e, image, sx, sy)
    requires width >= 1 && height >= 1
    requires image.width as real * sx == width as real && image.height as real * sy == height as real
    ensures e.resampled(image, sx, sy) == Size(width, height)
  {
    assert (width as real).Floor == width;
    assert (height as real).Floor == height;
  }

  /**
   * Scaling each side by target / side lands on the target exactly, so an
   * engine that resamples integral targets exactly produces the target.
   */
  lemma ResampleToSize(e: Engine, image: Raster, width: int, height: int)
    requires width >= 1 && height >= 1 && ExactAffine(e)
    ensures e.resampled(image, width as real / image.width as real, height as real / image.height as real)
            == Size(width, height)
  {
    var sx, sy := width as real / image.width as real, height as real / image.height as real;
    assert image.width as real * sx == width as real;
    assert image.height as real * sy == height as real;
    assert ExactAt(e, image, sx, sy);
    ExactAtTarget(e, image, sx, sy, width, height);
  }

  /**
   * The affine step of transformImage: under force each axis is scaled to
   * the requested size, otherwise both by the residual, and nothing happens
   * without force and residual.
   */
  method Resample(e: Engine, image: Raster, o: Options, residual: real) returns (r: Result<Raster>, ops: seq<Op>)
    ensures o.force ==> ops == [Affine(o.width as real / image.width as real, o.height as real / image.height as real, o.interpolator)]
    ensures !o.force && residual != 0.0 ==> ops == [Affine(residual, residual, o.interpolator)]
    ensures !o.force && residual == 0.0 ==> ops == [] && r == Ok(image)
    // under force the exact requested size, when libvips resamples integral targets exactly
    ensures o.force && o.width >= 1 && o.height >= 1 && ExactAffine(e) && r.Ok? ==> r.value == Size(o.width, o.height)
    ensures r.Ok? && ops != [] ==> r.value == e.resampled(image, ops[0].scaleX, ops[0].scaleY)
    ensures r.Err? ==> ops != [] && r.error == EngineFault(ops[0])
    ensures Reliable(e) ==> r.Ok?
  {
    var residualx, residualy := residual, residual;
    if o.force {
      residualx := o.width as real / image.width as real;
      residualy := o.height as real / image.height as real;
    }

    r, ops := Ok(image), [];
    if o.force || residual != 0.0 {
      var op := Affine(residualx, residualy, o.interpolator);
      ops := [op];
      r := Apply(e, image, op);
      if r.Ok? && o.force && o.width >= 1 && o.height >= 1 && ExactAffine(e) {
        ResampleToSize(e, image, o.width, o.height);
      }
    }
  }

  /** The options extractOrEmbedImage sees in transformImage: force switches crop and embed off. */
  function Unforced(o: Options): (u: Options)
    ensures u.force ==> !u.crop && !u.embed
    ensures u == o.(crop := u.crop, embed := u.embed)
  {
    if o.force then o.(crop := false, embed := false) else o
  }

  /**
   * The last step of transformImage: force switches crop and embed off,
   * then extractOrEmbedImage runs.
   */
  method Place(e: Engine, image: Raster, o: Options, maxSize: int) returns (r: Result<Raster>, ops: seq<Op>)
    ensures |ops| <= 1 && Within(ops, 7, 7) && forall op <- ops :: op.Extract? || op.Embed?
    ensures o.force ==> forall op <- ops :: !op.Embed?
    ensures o.force && o.top <= 0 && o.left <= 0 ==> r == Ok(image) && ops == []
    ensures !o.force && !o.crop && o.embed && r.Ok? ==> r.value == Size(o.width, o.height)
    ensures !o.force && o.crop && r.Ok? ==> r.value.width <= o.width && r.value.height <= o.height
    ensures r.Err? ==> (ops != [] && r.error == EngineFault(ops[0])) || Refused(o, r.error)
    ensures Reliable(e) && Placeable(o, maxSize) ==> r.Ok?
    ensures r.Ok? ==> ops == Placement(image, Unforced(o)).0 && r.value == Placement(image, Unforced(o)).1
  {
    var o := o;
    if o.force {
      o := o.(crop := false, embed := false);
    }
    r, ops := ExtractOrEmbedImage(e, image, o, maxSize);
  }

  /**
   * The calls of the first part of transformImage on success, and the
   * raster they yield: the integral shrink for a shrink above 1, then the
   * affine, per axis to the requested size under force and otherwise by
   * the residual, which a shrink recomputes from the shrunk raster; no
   * affine without force and residual.
   */
  ghost function Resampling(e: Engine, image: Raster, o: Options, shrink: int, residual: real): (p: (seq<Op>, Raster))
    ensures Ordered(p.0) && Within(p.0, 5, 6)
    ensures shrink > 1 ==> p.0 != [] && p.0[0] == Shrink(shrink)
    ensures shrink <= 1 ==> forall op <- p.0 :: !op.Shrink?
    ensures o.force ==> p.0 != [] && p.0[|p.0| - 1].Affine?
    // force: the requested size, when libvips resamples integral targets exactly
    ensures o.force && o.width >= 1 && o.height >= 1 && ExactAffine(e) ==> p.1 == Size(o.width, o.height)
    // no shrink, no force and no residual: nothing is called and nothing changes
    ensures shrink <= 1 && !o.force && residual == 0.0 ==> p == ([], image)
  {
    var mid := if shrink > 1 then e.shrunk(image, shrink) else image;
    var res := if shrink > 1 then ShrinkResidual(o, mid) else residual;
    var shrinking := if shrink > 1 then [Shrink(shrink)] else [];
    if o.force || res != 0.0 then
      var sx := if o.force then o.width as real / mid.width as real else res;
      var sy := if o.force then o.height as real / mid.height as real else res;
      OrderedAppend(shrinking, [Affine(sx, sy, o.interpolator)], 5, 6, 6);
      if o.force && o.width >= 1 && o.height >= 1 && ExactAffine(e) then
        ResampleToSize(e, mid, o.width, o.height);
        (shrinking + [Affine(sx, sy, o.interpolator)], e.resampled(mid, sx, sy))
      else
        (shrinking + [Affine(sx, sy, o.interpolator)], e.resampled(mid, sx, sy))
    else (shrinking, mid)
  }

  /**
   * The first part of transformImage: the integral shrink, then the affine
   * for the residual that shrinkImage recomputed, or per axis to the exact
   * requested size under force.
   */
  method ShrinkAndResample(e: Engine, image: Raster, o: Options, shrink: int, residual: real)
    returns (r: Result<Raster>, ops: seq<Op>)
    ensures Ordered(ops) && Within(ops, 5, 6)
    ensures shrink > 1 ==> ops != [] && ops[0] == Shrink(shrink)
    ensures shrink <= 1 ==> forall op <- ops :: !op.Shrink?
    // the affine runs under force or for a non-zero residual, the one shrinkImage recomputed after a shrink
    ensures var mid := if shrink > 1 then e.shrunk(image, shrink) else image;
      var res := if shrink > 1 then ShrinkResidual(o, mid) else residual;
      var affine := Affine(if o.force then o.width as real / mid.width as real else res,
                           if o.force then o.height as real / mid.height as real else res, o.interpolator);
      && (shrink <= 1 || !e.fails(image, Shrink(shrink)) ==> (affine in ops <==> o.force || res != 0.0))
      && (forall op <- ops :: op.Affine? ==> op == affine)
    ensures shrink <= 1 && !o.force && residual == 0.0 ==> ops == [] && r == Ok(image)
    ensures shrink > 1 && e.fails(image, Shrink(shrink)) ==> r.Err? && ops == [Shrink(shrink)]
    ensures o.force && o.width >= 1 && o.height >= 1 && ExactAffine(e) && r.Ok? ==> r.value == Size(o.width, o.height)
    ensures r.Err? ==> ops != [] && r.error == EngineFault(ops[|ops| - 1])
    ensures Reliable(e) ==> r.Ok?
    ensures r.Ok? ==> ops == Resampling(e, image, o, shrink, residual).0 && r.value == Resampling(e, image, o, shrink, residual).1
  {
    var mid, res := image, residual;
    ops := [];
    if shrink > 1 {
      var shrunk, shrunkResidual, shrinkOps := ShrinkImage(e, image, o, shrink);
      ops := shrinkOps;
      if shrunk.Err? {
        return shrunk, ops;
      }
      mid, res := shrunk.value, shrunkResidual;
    }

    var resampled, affineOps := Resample(e, mid, o, res);
    OrderedAppend(ops, affineOps, 5, 6, 6);
    ops := ops + affineOps;
    r := resampled;
  }

  /**
   * The calls of transformImage on success and the size it yields: the
   * resampling, then the placement of the resampled raster with crop and
   * embed switched off under force.
   */
  ghost function Transformation(e: Engine, image: Raster, o: Options, shrink: int, residual: real): (p: (seq<Op>, Size))
    ensures Ordered(p.0) && Within(p.0, 5, 7)
    ensures shrink > 1 ==> p.0 != [] && p.0[0] == Shrink(shrink)
    ensures shrink <= 1 && !o.force && residual == 0.0 ==> forall op <- p.0 :: !op.Resamples()
  {
    var a := Resampling(e, image, o, shrink, residual);
    var q := Placement(a.1, Unforced(o));
    assert Ordered(q.0) && Within(q.0, 7, 7);
    OrderedAppend(a.0, q.0, 5, 7, 7);
    (a.0 + q.0, q.1)
  }

  /**
   * A forced transformation resamples, never embeds, crops only for the
   * request's area, and, without an area, yields the requested size when
   * libvips resamples integral targets exactly.
   */
  lemma ForcedTransformation(e: Engine, image: Raster, o: Options, shrink: int, residual: real)
    requires o.force
    ensures var p := Transformation(e, image, o, shrink, residual);
      && (exists op <- p.0 :: op.Affine?)
      && (forall op <- p.0 :: !op.Embed?)
      && (o.top <= 0 && o.left <= 0 ==> forall op <- p.0 :: !op.Extract?)
      && (o.width >= 1 && o.height >= 1 && o.top <= 0 && o.left <= 0 && ExactAffine(e) ==> p.1 == Size(o.width, o.height))
  {
    var a := Resampling(e, image, o, shrink, residual);
    var q := Placement(a.1, Unforced(o));
    assert Transformation(e, image, o, shrink, residual) == (a.0 + q.0, q.1);
    assert a.0[|a.0| - 1] in a.0 + q.0;
    assert forall op <- a.0 + q.0 :: op in a.0 || op in q.0;
  }

  /**
   * Without force, the last call of a crop cuts a window of at most the
   * requested size out of the resampled raster, and the last call of an
   * embed puts it on a canvas of exactly the requested size.
   */
  lemma PlacedTransformation(e: Engine, image: Raster, o: Options, shrink: int, residual: real)
    requires !o.force && (o.crop || o.embed)
    ensures var p := Transformation(e, image, o, shrink, residual);
      var a := Resampling(e, image, o, shrink, residual).1;
      && p.0 != []
      && (o.crop ==> p.0[|p.0| - 1].Extract? && p.1 == Size(Min(a.width, o.width), Min(a.height, o.height)))
      && (!o.crop ==> p.0[|p.0| - 1].Embed? && p.1 == Size(o.width, o.height))
  {
    var a := Resampling(e, image, o, shrink, residual);
    var q := Placement(a.1, o);
    assert Transformation(e, image, o, shrink, residual) == (a.0 + q.0, q.1);
    assert (a.0 + q.0)[|a.0 + q.0| - 1] == q.0[0];
  }


  /**
   * transformImage: the integral shrink, the affine for the residual (per
   * axis to the exact requested size under force), then the crop, embed or
   * area step, which force switches off for crop and embed.
   */
  method TransformImage(e: Engine, image: Raster, o: Options, shrink: int, residual: real, maxSize: int)
    returns (r: Result<Raster>, ops: seq<Op>)
    ensures Ordered(ops) && Within(ops, 5, 7)
    ensures shrink > 1 ==> ops != [] && ops[0] == Shrink(shrink)
    ensures shrink <= 1 ==> forall op <- ops :: !op.Shrink?
    // it scales each axis to the requested size under force, and by the residual otherwise
    ensures var mid := if shrink > 1 then e.shrunk(image, shrink) else image;
      var res := if shrink > 1 then ShrinkResidual(o, mid) else residual;
      var affine := Affine(if o.force then o.width as real / mid.width as real else res,
                           if o.force then o.height as real / mid.height as real else res, o.interpolator);
      && (shrink <= 1 || !e.fails(image, Shrink(shrink)) ==> (affine in ops <==> o.force || res != 0.0))
      && (forall op <- ops :: op.Affine? ==> op == affine)
    ensures shrink <= 1 && !o.force && residual == 0.0 ==> forall op <- ops :: !op.Resamples()
    ensures shrink > 1 && e.fails(image, Shrink(shrink)) ==> r.Err? && ops == [Shrink(shrink)]
    // force switches crop and embed off
    ensures o.force ==> forall op <- ops :: !op.Embed?
    ensures o.force && o.top <= 0 && o.left <= 0 ==> forall op <- ops :: !op.Extract?
    // force: the exact requested size, when libvips resamples integral targets exactly
    ensures o.force && o.width >= 1 && o.height >= 1 && o.top <= 0 && o.left <= 0 && ExactAffine(e) && r.Ok? ==>
      r.value == Size(o.width, o.height)
    ensures !o.force && !o.crop && o.embed && r.Ok? ==> r.value == Size(o.width, o.height)
    ensures !o.force && o.crop && r.Ok? ==> r.value.width <= o.width && r.value.height <= o.height
    // a failure is the last call's or the request's; a placeable request on a reliable engine succeeds
    ensures r.Err? ==> (ops != [] && r.error == EngineFault(ops[|ops| - 1])) || Refused(o, r.error)
    ensures Reliable(e) && Placeable(o, maxSize) ==> r.Ok?
    // on success, exactly the calls and the size of the transformation
    ensures r.Ok? ==> ops == Transformation(e, image, o, shrink, residual).0 && r.value == Transformation(e, image, o, shrink, residual).1
  {
    var resampled;
    resampled, ops := ShrinkAndResample(e, image, o, shrink, residual);
    if resampled.Err? {
      return resampled, ops;
    }

    var final, finalOps := Place(e, resampled.value, o, maxSize);
    OrderedAppend(ops, finalOps, 5, 7, 7);
    ops := ops + finalOps;
    r := final;
  }

  /** applyEffects: a Gaussian blur when one is asked for. */
  method ApplyEffects(e: Engine, image: Raster, o: Options) returns (r: Result<Raster>, ops: seq<Op>)
    ensures ShouldApplyEffects(o) ==> ops == [Blur(o.gaussianBlur.sigma, o.gaussianBlur.minAmpl)]
    ensures !ShouldApplyEffects(o) ==> ops == [] && r == Ok(image)
    ensures r.Ok? ==> r.value == image
    ensures r.Err? ==> ops != [] && r.error == EngineFault(ops[0])
    ensures Reliable(e) ==> r.Ok?
  {
    r, ops := Ok(image), [];
    if o.gaussianBlur.sigma > 0.0 || o.gaussianBlur.minAmpl > 0.0 {
      var op := Blur(o.gaussianBlur.sigma, o.gaussianBlur.minAmpl);
      ops := [op];
      r := Apply(e, image, op);
    }
  }

  /**
   * Whether rotateAndFlipImage rotates: for an explicit positive angle, or,
   * with auto-rotation on and no angle given, for a rotating EXIF orientation.
   */
  predicate RotateRequested(o: Options, exif: int) {
    o.rotate > 0 || (o.rotate == 0 && !o.noAutoRotate && CalculateRotationAndFlip(o.rotate, exif).0 > 0)
  }

  /** The angle it then rotates by: the explicit one snapped by getAngle, or the EXIF one. */
  function RotationAngle(o: Options, exif: int): int {
    if o.rotate > 0 then GetAngle(o.rotate) else CalculateRotationAndFlip(o.rotate, exif).0
  }

  /** Whether it flips horizontally: when asked, or for a mirrored EXIF orientation with auto-rotation on. */
  predicate Flipped(o: Options, exif: int) {
    o.flip || (!o.noAutoRotate && CalculateRotationAndFlip(o.rotate, exif).1)
  }

  /**
   * The calls rotateAndFlipImage makes when they succeed: one rotation by
   * the requested or EXIF angle when there is one, then one flip, the
   * horizontal one winning over the vertical flop.
   */
  function Turning(o: Options, exif: int): (ops: seq<Op>)
    ensures Ordered(ops) && Within(ops, 3, 4)
    // each call at most once: a rotation when requested, a flip when either direction is
    ensures |ops| == (if RotateRequested(o, exif) then 1 else 0) + (if Flipped(o, exif) || o.flop then 1 else 0)
  {
    (if RotateRequested(o, exif) then [Rotate(RotationAngle(o, exif))] else [])
    + (if Flipped(o, exif) then [Flip(Horizontal)] else if o.flop then [Flip(Vertical)] else [])
  }

  /** Which calls `Turning` holds: the rotation and each flip exactly when asked for. */
  lemma TurningCalls(o: Options, exif: int)
    ensures var ops := Turning(o, exif);
      && (Rotate(RotationAngle(o, exif)) in ops <==> RotateRequested(o, exif))
      && (forall op <- ops :: op.Rotate? ==> op == Rotate(RotationAngle(o, exif)))
      && (Flip(Horizontal) in ops <==> Flipped(o, exif))
      && (Flip(Vertical) in ops <==> !Flipped(o, exif) && o.flop)
  {
  }

  /**
   * The first block of rotateAndFlipImage: unless auto-rotation is off, the
   * EXIF orientation sets the flip, and the rotation when none is given.
   */
  method AutoRotation(e: Engine, o: Options) returns (rotate: int, flip: bool)
    ensures rotate > 0 <==> RotateRequested(o, e.exifOrientation)
    ensures rotate > 0 ==> GetAngle(rotate) == RotationAngle(o, e.exifOrientation)
    ensures flip <==> Flipped(o, e.exifOrientation)
  {
    flip, rotate := o.flip, o.rotate;
    if !o.noAutoRotate {
      var exif := CalculateRotationAndFlip(o.rotate, e.exifOrientation);
      if exif.1 {
        flip := exif.1;
      }
      if exif.0 > 0 && rotate == 0 {
        rotate := exif.0;
        GetAngleIdempotent(exif.0);
        assert GetAngle(exif.0) == exif.0 by {
          assert GetAngle(90) == 90 && GetAngle(180) == 180 && GetAngle(270) == 270;
        }
      }
    }
  }

  /**
   * rotateAndFlipImage: an explicit rotation wins over EXIF, EXIF is read
   * only without noAutoRotate, and a horizontal flip (requested or from
   * EXIF) wins over a vertical flop.
   */
  method RotateAndFlipImage(e: Engine, image: Raster, o: Options) returns (r: Result<Raster>, ops: seq<Op>)
    ensures Ordered(ops) && Within(ops, 3, 4)
    // rotation: explicit angle, else EXIF when allowed
    ensures Rotate(RotationAngle(o, e.exifOrientation)) in ops <==> RotateRequested(o, e.exifOrientation)
    ensures forall op <- ops :: op.Rotate? ==> op == Rotate(RotationAngle(o, e.exifOrientation))
    ensures RotateRequested(o, e.exifOrientation) ==> ops != [] && ops[0] == Rotate(RotationAngle(o, e.exifOrientation))
    // flip: requested or from EXIF, else flop
    ensures r.Ok? ==> (Flip(Horizontal) in ops <==> Flipped(o, e.exifOrientation))
    ensures r.Ok? ==> (Flip(Vertical) in ops <==> !Flipped(o, e.exifOrientation) && o.flop)
    // the calls: those of `Turning` on success, and a prefix of them on failure
    ensures r.Ok? ==> ops == Turning(o, e.exifOrientation)
    ensures ops <= Turning(o, e.exifOrientation)
    // the raster: a quarter turn swaps the sides, nothing else changes them
    ensures r.Ok? && (forall op <- ops :: !op.Rotate?) ==> r.value == image
    ensures r.Ok? && ops != [] && ops[0].Rotate? ==>
      r.value == if ops[0].angle == 90 || ops[0].angle == 270 then Size(image.height, image.width) else image
    // a failure is the last call's; a reliable engine does not fail
    ensures r.Err? ==> ops != [] && r.error == EngineFault(ops[|ops| - 1])
    ensures Reliable(e) ==> r.Ok?
  {
    TurningCalls(o, e.exifOrientation);
    var rotate, flip := AutoRotation(e, o);
    var image := image;
    r, ops := Ok(image), [];
    if rotate > 0 {
      var op := Rotate(GetAngle(rotate));
      ops := [op];
      r := Apply(e, image, op);
      if r.Err? {
        return;
      }
      image := r.value;
    }

    if flip || o.flop {
      var op := Flip(if flip then Horizontal else Vertical);
      OrderedAppend(ops, [op], 3, 4, 4);
      ops := ops + [op];
      r := Apply(e, image, op);
    }
  }

  /**
   * The watermark watermakImage draws: the zero fields of the caller's
   * watermark take their defaults (font, a sixth of the image width, 150
   * dpi, a margin equal to the width) and the opacity is clamped to at
   * most 1, with 0 meaning 0.25.
   */
  function WatermarkDefaults(w: Watermark, imageWidth: int, font: string): (m: Watermark)
    ensures m == w.(font := m.font, width := m.width, dpi := m.dpi, margin := m.margin, opacity := m.opacity)
    ensures m.font == (if w.font == [] then font else w.font)
    ensures m.width == OrDefault(w.width, imageWidth / 6)
    ensures m.dpi == OrDefault(w.dpi, WATERMARK_DPI)
    ensures m.margin == OrDefault(w.margin, m.width)
    ensures w.opacity == 0.0 ==> m.opacity == WATERMARK_OPACITY
    ensures 0.0 < w.opacity <= 1.0 ==> m.opacity == w.opacity
    ensures w.opacity > 1.0 ==> m.opacity == 1.0
    ensures m.opacity <= 1.0
    ensures w.opacity >= 0.0 ==> 0.0 < m.opacity
  {
    var width := OrDefault(w.width, imageWidth / 6);
    w.(font := if w.font == [] then font else w.font,
       width := width,
       dpi := OrDefault(w.dpi, WATERMARK_DPI),
       margin := OrDefault(w.margin, width),
       opacity := if w.opacity == 0.0 then WATERMARK_OPACITY else if w.opacity > 1.0 then 1.0 else w.opacity)
  }

  /** watermakImage: no text, no watermark; otherwise the defaulted watermark is drawn. */
  method WatermarkImage(e: Engine, image: Raster, w: Watermark, font: string) returns (r: Result<Raster>, ops: seq<Op>)
    ensures w.text == [] ==> r == Ok(image) && ops == []
    ensures w.text != [] ==> ops == [Mark(WatermarkDefaults(w, image.width, font))]
    ensures r.Ok? ==> r.value == image
    ensures r.Err? ==> ops != [] && r.error == EngineFault(ops[0])
    ensures Reliable(e) ==> r.Ok?
  {
    if w.text == [] {
      return Ok(image), [];
    }
    var w := w;
    if w.font == [] {
      w := w.(font := font);
    }
    if w.width == 0 {
      w := w.(width := image.width / 6);
    }
    if w.dpi == 0 {
      w := w.(dpi := WATERMARK_DPI);
    }
    if w.margin == 0 {
      w := w.(margin := w.width);
    }
    if w.opacity == 0.0 {
      w := w.(opacity := WATERMARK_OPACITY);
    } else if w.opacity > 1.0 {
      w := w.(opacity := 1.0);
    }
    var op := Mark(w);
    ops := [op];
    r := Apply(e, image, op);
  }

  /** zoomImage: zoom 0 does nothing; zoom n magnifies by n + 1. */
  method ZoomImage(e: Engine, image: Raster, zoom: int) returns (r: Result<Raster>, ops: seq<Op>)
    ensures zoom == 0 ==> r == Ok(image) && ops == []
    ensures zoom != 0 ==> ops == [Zoom(zoom + 1)]
    ensures zoom != 0 && r.Ok? ==>
      zoom >= 1 && r.value == Size(image.width * (zoom + 1), image.height * (zoom + 1))
    // a negative zoom is refused; otherwise only the engine's own failure stops it
    ensures zoom < 0 ==> r.Err?
    ensures r.Err? ==> ops != [] && r.error == EngineFault(ops[0])
    ensures Reliable(e) && zoom >= 0 ==> r.Ok?
  {
    if zoom == 0 {
      return Ok(image), [];
    }
    var op := Zoom(zoom + 1);
    ops := [op];
    r := Apply(e, image, op);
  }

  /**
   * What Resize hands to libvips: the type it loads, the raster the
   * geometric steps start from, the calls each step of Resize made, in the
   * order the steps run, the raster the encoder receives, the options after
   * normalisation, and the shrink and residual the geometry was given.
   */
  datatype Plan = Plan(
    kind: ImageType,
    loaded: Raster,         // the raster after shrink-on-load
    scaling: seq<Op>,       // shrink-on-load
    zooming: seq<Op>,       // zoomImage
    turning: seq<Op>,       // rotateAndFlipImage
    transforming: seq<Op>,  // transformImage
    effects: seq<Op>,       // applyEffects
    marking: seq<Op>,       // watermarkImage
    saving: seq<Op>,        // vipsSave
    output: Raster,
    options: Options,
    shrink: int,
    residual: real)
  {
    /** Every libvips call of the plan, from the load to the save. */
    function Ops(): seq<Op> {
      [Load(kind)] + scaling + zooming + turning + transforming + effects + marking + saving
    }

    /** Each step made only calls of its own kind, in pipeline order. */
    predicate Staged() {
      && Ordered(scaling) && Within(scaling, 1, 1)
      && Ordered(zooming) && Within(zooming, 2, 2)
      && Ordered(turning) && Within(turning, 3, 4)
      && Ordered(transforming) && Within(transforming, 5, 7)
      && Ordered(effects) && Within(effects, 8, 8)
      && Ordered(marking) && Within(marking, 9, 9)
      && Ordered(saving) && Within(saving, 10, 12)
    }
  }

  /**
   * The save options Resize builds from its options: quality, compression,
   * output type, interlacing, profile removal and interpretation are passed
   * on, so the encoder is the one of the requested output type.
   */
  function SaveOptionsOf(o: Options): (so: SaveOptions)
    ensures so.quality == o.quality && so.compression == o.compression && so.interlace == o.interlace
    ensures so.noProfile == o.noProfile && so.interpretation == o.interpretation
    ensures SaveEncoder(so).WebpSave? <==> o.imageType == Webp
    ensures SaveEncoder(so).PngSave? <==> o.imageType == Png
    ensures o.imageType != Webp && o.imageType != Png ==> SaveEncoder(so).JpegSave?
  {
    SaveOptions(o.quality, o.compression, o.imageType, o.interlace, o.noProfile, o.interpretation)
  }

  /**
   * The first stage of Resize: refuse an empty buffer, read and sniff the
   * image, fill in the option defaults and refuse an output type libvips
   * cannot write.
   */
  method ReadImage(buf: seq<byte>, o: Options, e: Engine, d: Defaults)
    returns (r: Result<(Raster, ImageType, Options)>)
    ensures |buf| == 0 ==> r == Err(EmptyBuffer)
    ensures |buf| > 0 && VipsRead(e, buf).Err? ==> r == Err(VipsRead(e, buf).error)
    ensures |buf| > 0 && VipsRead(e, buf).Ok? ==>
      var kind := VipsRead(e, buf).value.1;
      var od := WithDefaults(o, kind, d);
      && (!e.typeSupported(od.imageType) ==> r == Err(UnsupportedOutputType))
      && (e.typeSupported(od.imageType) ==> r == Ok((e.decoded, kind, od)))
  {
    if |buf| == 0 {
      return Err(EmptyBuffer);
    }
    var read := VipsRead(e, buf);
    if read.Err? {
      return Err(read.error);
    }
    var image, imageType := read.value.0, read.value.1;
    var o := ApplyDefaults(o, imageType, d);
    if !e.typeSupported(o.imageType) {
      return Err(UnsupportedOutputType);
    }
    r := Ok((image, imageType, o));
  }

  /**
   * The no-enlarge guard of Resize: neither enlarge nor force (after
   * normalisation), and the input smaller on both sides than the size
   * imageCalculations computed, a side in proportion included.
   */
  predicate NoEnlarge(o: Options, inWidth: int, inHeight: int)
    requires inWidth >= 1 && inHeight >= 1
  {
    var t := ImageTarget(o, inWidth, inHeight);
    !o.enlarge && !o.force && !ForceImplied(o) && inWidth < t.width && inHeight < t.height
  }

  /** The output size, factor, shrink and residual Resize settles on before any shrink-on-load. */
  datatype Calculation = Calculation(width: int, height: int, factor: real, shrink: int, residual: real)

  /**
   * The scaling arithmetic of Resize: imageCalculations, calculateShrink
   * with the interpolator's window, calculateResidual, then the no-enlarge
   * guard, which resets everything to the input's own size.
   */
  function ScaleCalculation(e: Engine, o: Options, inWidth: int, inHeight: int): (s: Calculation)
    requires inWidth >= 1 && inHeight >= 1
    ensures s.factor > 0.0 && s.shrink >= 1
    // the integral shrink never exceeds the factor it comes from
    ensures s.shrink >= 2 ==> s.shrink as real <= s.factor
    // the guard: the input's size, no shrink and no residual
    ensures NoEnlarge(o, inWidth, inHeight) ==> s == Calculation(inWidth, inHeight, 1.0, 1, 0.0)
    // otherwise imageCalculations' size and factor, with a residual that completes the shrink
    ensures !NoEnlarge(o, inWidth, inHeight) ==>
      var t := ImageTarget(o, inWidth, inHeight);
      && s.width == t.width && s.height == t.height && s.factor == t.factor
      && s.shrink == CalculateShrink(t.factor, e.windowSize(o.interpolator))
      && s.residual == CalculateResidual(t.factor, s.shrink)
    ensures !NoEnlarge(o, inWidth, inHeight) && s.factor >= 1.0 ==> 0.0 < s.residual <= 1.0
    // a forced or plain request for both sides keeps them; a request for no size is the identity
    ensures (o.force || ForceImplied(o)) && o.width >= 1 && o.height >= 1 ==> s.width == o.width && s.height == o.height
    ensures o.width <= 0 && o.height <= 0 ==> s.width == inWidth && s.height == inHeight && s.shrink == 1
  {
    if NoEnlarge(o, inWidth, inHeight) then Calculation(inWidth, inHeight, 1.0, 1, 0.0)
    else
      var t := ImageTarget(o, inWidth, inHeight);
      var shrink := CalculateShrink(t.factor, e.windowSize(o.interpolator));
      Calculation(t.width, t.height, t.factor, shrink, CalculateResidual(t.factor, shrink))
  }

  /**
   * The guard also catches a one-side request: under crop, embed or a
   * rotation, asking for at least twice the input's width with no height
   * makes the proportional height at least twice the input's too, and
   * the input is left at its own size.
   */
  lemma NoEnlargeOneSide(e: Engine, o: Options, inWidth: int, inHeight: int)
    requires inWidth >= 1 && inHeight >= 1
    requires !o.enlarge && !o.force && (o.crop || o.embed || o.rotate != 0)
    requires o.width >= 2 * inWidth && o.height <= 0
    ensures NoEnlarge(o, inWidth, inHeight)
    ensures ScaleCalculation(e, o, inWidth, inHeight) == Calculation(inWidth, inHeight, 1.0, 1, 0.0)
  {
    var t := ImageTarget(o, inWidth, inHeight);
    AtLeastTwice(inWidth, inHeight, o.width, t.height);
  }

  /** A side rounded down from in * out / side is at least twice in when out is at least twice side. */
  lemma AtLeastTwice(side: int, other: int, out: int, r: int)
    requires side >= 1 && other >= 1 && out >= 2 * side
    requires other * out < (r + 1) * side
    ensures r >= 2 * other
  {
    assert other * out >= other * (2 * side);
    assert (r + 1 - 2 * other) * side > 0;
  }

  /** What the scaling stage hands on: the image, the options it rewrote, and the shrink and residual. */
  datatype ScaledImage = ScaledImage(image: Raster, options: Options, shrink: int, residual: real)

  /** imageCalculations reads the requested size and crop, never force. */
  lemma TargetIgnoresForce(o: Options, force: bool, inWidth: int, inHeight: int)
    requires inWidth >= 1 && inHeight >= 1
    ensures ImageTarget(o.(force := force), inWidth, inHeight) == ImageTarget(o, inWidth, inHeight)
  {
  }

  /**
   * The scaling arithmetic as Resize performs it: normalise the request,
   * compute factor, shrink and residual, and apply the no-enlarge guard.
   * Of the options only force, width and height change.
   */
  method CalculateScale(e: Engine, inWidth: int, inHeight: int, o: Options)
    returns (opts: Options, factor: real, shrink: int, residual: real)
    requires inWidth >= 1 && inHeight >= 1
    ensures opts == ScaledOptions(e, o, inWidth, inHeight)
    ensures opts.force <==> o.force || ForceImplied(o)
    ensures Calculation(opts.width, opts.height, factor, shrink, residual) == ScaleCalculation(e, o, inWidth, inHeight)
  {
    var o' := NormalizeOperation(o);
    var width, height;
    width, height, factor := ImageCalculations(o', inWidth, inHeight);
    TargetIgnoresForce(o, o'.force, inWidth, inHeight);
    shrink := CalculateShrink(factor, e.windowSize(o'.interpolator));
    residual := CalculateResidual(factor, shrink);

    assert NoEnlarge(o, inWidth, inHeight) <==> !o'.enlarge && !o'.force && inWidth < width && inHeight < height;
    if !o'.enlarge && !o'.force {
      if inWidth < width && inHeight < height {
        factor := 1.0;
        shrink := 1;
        residual := 0.0;
        width, height := inWidth, inHeight;
      }
    }
    assert Calculation(width, height, factor, shrink, residual) == ScaleCalculation(e, o, inWidth, inHeight);
    opts := o.(force := o'.force, width := width, height := height);
  }

  /**
   * The JPEG block of Resize: for a JPEG whose shrink is at least 2, reload
   * it with shrink-on-load, then recompute shrink and residual from the
   * reduced factor. Anything else passes through unchanged.
   */
  method PreShrink(e: Engine, image: Raster, imageType: ImageType, factor: real, shrink: int, residual: real)
    returns (r: Result<(Raster, int, real)>, ops: seq<Op>)
    ensures ops == [] <==> imageType != Jpeg || shrink < 2
    ensures ops == [] ==> r == Ok((image, shrink, residual))
    // the level shrinkJpegImage picks, and shrink and residual recomputed from the factor it leaves
    ensures ops != [] ==> ops == [ShrinkOnLoad(JpegShrinkLevel(shrink))]
    ensures ops != [] && r.Ok? ==>
      var level := JpegShrinkLevel(shrink);
      var f := MaxReal(factor / level as real, 1.0);
      r.value == (e.jpegDecoded(level), f.Floor, f.Floor as real / f)
    // when the shrink did not exceed the factor, the stages together still only reduce
    ensures ops != [] && r.Ok? && shrink as real <= factor ==>
      r.value.1 >= 1 && 0.0 < r.value.2 <= 1.0 && (ops[0].level * r.value.1) as real <= factor
    ensures r.Err? ==> ops != [] && r.error == EngineFault(ops[0])
    ensures Reliable(e) ==> r.Ok?
  {
    ops := [];
    r := Ok((image, shrink, residual));
    if imageType == Jpeg && shrink >= 2 {
      if shrink as real <= factor {
        JpegPreShrinkNeverOvershoots(factor, shrink);
      }
      // the block's own factor shadows the outer one; only shrink and residual leave it
      var tmpImage, factor, jpegOps := ShrinkJpegImage(e, image, factor, shrink);
      ops := jpegOps;
      if tmpImage.Err? {
        return Err(tmpImage.error), ops;
      }
      factor := MaxReal(factor, 1.0);
      var shrink := factor.Floor;
      r := Ok((tmpImage.value, shrink, shrink as real / factor));
    }
  }

  /**
   * The second stage of Resize: the scaling arithmetic, then JPEG
   * shrink-on-load when it applies.
   */
  method PlanScale(e: Engine, image: Raster, imageType: ImageType, o: Options)
    returns (r: Result<ScaledImage>, ops: seq<Op>)
    // shrink-on-load exactly for a JPEG the scaling shrinks by at least 2, at the level it selects
    ensures var s := ScaleCalculation(e, o, image.width, image.height);
      && (ops != [] <==> imageType == Jpeg && s.shrink >= 2)
      && (ops != [] ==> ops == [ShrinkOnLoad(JpegShrinkLevel(s.shrink))])
    // otherwise the scaling arithmetic passes through
    ensures var s := ScaleCalculation(e, o, image.width, image.height);
      ops == [] ==> r == Ok(ScaledImage(image, ScaledOptions(e, o, image.width, image.height), s.shrink, s.residual))
    // after shrink-on-load: the reloaded image, and shrink and residual from the reduced factor
    ensures var s := ScaleCalculation(e, o, image.width, image.height);
      var level := JpegShrinkLevel(s.shrink);
      var f := MaxReal(s.factor / level as real, 1.0);
      ops != [] && r.Ok? ==>
        && r.value == ScaledImage(e.jpegDecoded(level), ScaledOptions(e, o, image.width, image.height), f.Floor, f.Floor as real / f)
        && 0.0 < r.value.residual <= 1.0
    // the no-enlarge guard: nothing is shrunk
    ensures NoEnlarge(o, image.width, image.height) ==>
      ops == [] && r == Ok(ScaledImage(image, o.(width := image.width, height := image.height), 1, 0.0))
    ensures r.Err? ==> ops != [] && r.error == EngineFault(ops[0])
    ensures Reliable(e) ==> r.Ok?
  {
    var opts, factor, shrink, residual := CalculateScale(e, image.width, image.height, o);
    var pre;
    pre, ops := PreShrink(e, image, imageType, factor, shrink, residual);
    if pre.Err? {
      return Err(pre.error), ops;
    }
    r := Ok(ScaledImage(pre.value.0, opts, pre.value.1, pre.value.2));
  }

  /** The options the later stages of Resize see: force normalised, and the size the scaling settled on. */
  function ScaledOptions(e: Engine, o: Options, inWidth: int, inHeight: int): (q: Options)
    requires inWidth >= 1 && inHeight >= 1
    // only force and the size change; force is set exactly when requested or implied
    ensures q == o.(force := q.force, width := q.width, height := q.height)
    ensures q.force <==> o.force || ForceImplied(o)
    // the size is the one the scaling arithmetic settled on: the input's own under the no-enlarge guard,
    // the requested one for a forced or plain request for both sides
    ensures q.width == ScaleCalculation(e, o, inWidth, inHeight).width
    ensures q.height == ScaleCalculation(e, o, inWidth, inHeight).height
    ensures NoEnlarge(o, inWidth, inHeight) ==> q.width == inWidth && q.height == inHeight && !q.force
    ensures q.force && o.width >= 1 && o.height >= 1 ==> q.width == o.width && q.height == o.height
  {
    var s := ScaleCalculation(e, o, inWidth, inHeight);
    o.(force := o.force || ForceImplied(o), width := s.width, height := s.height)
  }

  /**
   * What Resize promises of a plan made from `image`, of type `kind`, with
   * options `o` whose defaults are filled in.
   */
  ghost predicate SoundPlan(e: Engine, image: Raster, kind: ImageType, o: Options, d: Defaults, p: Plan) {
    var s := ScaleCalculation(e, o, image.width, image.height);
    var jpeg := kind == Jpeg && s.shrink >= 2;
    // the load of this type first, every step in pipeline order
    && p.kind == kind && p.Staged() && Ordered(p.Ops())
    // scaling: the options the later steps see, and the shrink and residual handed to the geometry
    && p.options == ScaledOptions(e, o, image.width, image.height)
    && p.scaling == (if jpeg then [ShrinkOnLoad(JpegShrinkLevel(s.shrink))] else [])
    && (!jpeg ==> p.loaded == image && p.shrink == s.shrink && p.residual == s.residual)
    && (jpeg ==>
          var level := JpegShrinkLevel(s.shrink);
          var f := MaxReal(s.factor / level as real, 1.0);
          && p.loaded == e.jpegDecoded(level)
          && p.shrink == f.Floor && p.residual == f.Floor as real / f && 0.0 < p.residual <= 1.0)
    // the no-enlarge guard: the input's own size, no shrink and no residual
    && (NoEnlarge(o, image.width, image.height) ==>
          && p.shrink == 1 && p.residual == 0.0
          && p.options.width == image.width && p.options.height == image.height)
    // the geometric steps, then effects, watermark and save, as the scaled options ask
    && Reshaped(e, p.loaded, p.options, image.width, image.height, p.shrink, p.residual,
                p.zooming, p.turning, p.transforming, p.output)
    && Finished(e, p.options, d, p.output, p.effects, p.marking, p.saving)
  }

  /** Whether rotateAndFlipImage turns the raster by a quarter, swapping its sides. */
  predicate QuarterTurn(o: Options, exif: int) {
    RotateRequested(o, exif) && (RotationAngle(o, exif) == 90 || RotationAngle(o, exif) == 270)
  }

  /**
   * The raster zoomImage and rotateAndFlipImage hand on when they succeed:
   * magnified by zoom + 1 for a positive zoom, then with its sides swapped
   * by a quarter turn. A flip keeps the size.
   */
  function Turned(e: Engine, input: Raster, o: Options): (t: Raster)
    ensures o.zoom <= 0 && !QuarterTurn(o, e.exifOrientation) ==> t == input
    // neither step changes the sum of the sides other than by the zoom factor
    ensures t.width + t.height == (input.width + input.height) * (if o.zoom > 0 then o.zoom + 1 else 1)
  {
    var k := if o.zoom > 0 then o.zoom + 1 else 1;
    Magnified(input.width, input.height, k);
    var zoomed := Size(input.width * k, input.height * k);
    if QuarterTurn(o, e.exifOrientation) then Size(zoomed.height, zoomed.width) else zoomed
  }

  /** Magnifying both sides by a positive factor keeps them positive and scales their sum. */
  lemma Magnified(width: int, height: int, k: int)
    requires width >= 1 && height >= 1 && k >= 1
    ensures width * k >= width && height * k >= height
    ensures width * k + height * k == (width + height) * k
  {
  }

  /**
   * What the geometric steps promise, from `input` to `output`: zoom,
   * rotation and flip as asked, and the calls of transformImage only when
   * shouldTransformImage holds.
   */
  ghost predicate Reshaped(e: Engine, input: Raster, o: Options, inWidth: int, inHeight: int, shrink: int, residual: real,
                     zooming: seq<Op>, turning: seq<Op>, transforming: seq<Op>, output: Raster)
  {
    var exif := e.exifOrientation;
    // zoom, rotation and flip
    && zooming == (if o.zoom == 0 then [] else [Zoom(o.zoom + 1)])
    && turning == Turning(o, exif)
    // when shouldTransformImage holds, exactly the calls and the size of transformImage on the zoomed
    // and turned raster; otherwise no call, and that raster itself
    && (ShouldTransformImage(o, inWidth, inHeight) ==>
          var t := Transformation(e, Turned(e, input, o), o, shrink, residual);
          transforming == t.0 && output == t.1)
    && (!ShouldTransformImage(o, inWidth, inHeight) ==> transforming == [] && output == Turned(e, input, o))
  }

  /**
   * The geometric steps of Resize: zoom, rotate and flip, then transform
   * when shouldTransformImage holds. The calls of each step are returned
   * apart.
   */
  method Reshape(e: Engine, image: Raster, o: Options, inWidth: int, inHeight: int,
                 shrink: int, residual: real, maxSize: int)
    returns (r: Result<Raster>, zooming: seq<Op>, turning: seq<Op>, transforming: seq<Op>)
    ensures Ordered(zooming) && Within(zooming, 2, 2)
    ensures Ordered(turning) && Within(turning, 3, 4)
    ensures Ordered(transforming) && Within(transforming, 5, 7)
    ensures r.Ok? ==> Reshaped(e, image, o, inWidth, inHeight, shrink, residual, zooming, turning, transforming, r.value)
    // a failure is libvips' or the request's; a placeable request on a reliable engine succeeds
    ensures r.Err? ==> r.error.EngineFault? || Refused(o, r.error)
    ensures Reliable(e) && o.zoom >= 0 && Placeable(o, maxSize) ==> r.Ok?
  {
    turning, transforming := [], [];
    r, zooming := ZoomImage(e, image, o.zoom);
    if r.Err? {
      return;
    }

    var zoomed := r.value;
    assert zoomed == if o.zoom > 0 then Size(image.width * (o.zoom + 1), image.height * (o.zoom + 1)) else image;
    r, turning := RotateAndFlipImage(e, zoomed, o);
    if r.Err? {
      return;
    }
    assert r.value == Turned(e, image, o) by {
      if RotateRequested(o, e.exifOrientation) {
        assert turning[0] == Rotate(RotationAngle(o, e.exifOrientation));
      }
    }
    if !ShouldTransformImage(o, inWidth, inHeight) {
      return;
    }

    r, transforming := TransformImage(e, r.value, o, shrink, residual, maxSize);
  }

  /**
   * The calls vipsSave makes for Resize's options on success: profile
   * removal when asked, the conversion to the defaulted interpretation
   * when libvips supports it, and the encoder of the output type last.
   */
  function Saving(e: Engine, o: Options, d: Defaults): (ops: seq<Op>)
    ensures ops != [] && ops[|ops| - 1] == Save(SaveEncoder(SaveOptionsOf(o)))
    ensures RemoveProfile in ops <==> o.noProfile
    ensures Colourspace(OrDefault(o.interpretation, d.srgb)) in ops <==> e.colourspaceSupported
    ensures forall op <- ops :: op == RemoveProfile || op == Colourspace(OrDefault(o.interpretation, d.srgb)) || op.Save?
  {
    (if o.noProfile then [RemoveProfile] else [])
    + (if e.colourspaceSupported then [Colourspace(OrDefault(o.interpretation, d.srgb))] else [])
    + [Save(SaveEncoder(SaveOptionsOf(o)))]
  }

  /**
   * What the last steps promise for `image`: the blur and the watermark
   * exactly when asked for; then profile removal when asked, the
   * conversion to the defaulted interpretation when libvips supports it,
   * and the save.
   */
  predicate Finished(e: Engine, o: Options, d: Defaults, image: Raster, effects: seq<Op>, marking: seq<Op>, saving: seq<Op>) {
    && effects == (if ShouldApplyEffects(o) then [Blur(o.gaussianBlur.sigma, o.gaussianBlur.minAmpl)] else [])
    && marking == (if o.watermark.text == [] then [] else [Mark(WatermarkDefaults(o.watermark, image.width, d.font))])
    && saving == Saving(e, o, d)
  }

  /**
   * The last steps of Resize: effects when shouldApplyEffects holds, the
   * watermark, then vipsSave with the save options built from `o`. The
   * calls of each step are returned apart.
   */
  method Finish(e: Engine, image: Raster, o: Options, d: Defaults)
    returns (r: Result<Raster>, effects: seq<Op>, marking: seq<Op>, saving: seq<Op>)
    ensures Ordered(effects) && Within(effects, 8, 8)
    ensures Ordered(marking) && Within(marking, 9, 9)
    ensures Ordered(saving) && Within(saving, 10, 12)
    ensures r.Ok? ==> r.value == image && Finished(e, o, d, image, effects, marking, saving)
    // a failure is libvips'; a reliable engine does not fail
    ensures r.Err? ==> r.error.EngineFault?
    ensures Reliable(e) ==> r.Ok?
  {
    r, effects, marking, saving := Ok(image), [], [], [];
    if ShouldApplyEffects(o) {
      r, effects := ApplyEffects(e, image, o);
      if r.Err? {
        return;
      }
    }

    r, marking := WatermarkImage(e, image, o.watermark, d.font);
    if r.Err? {
      return;
    }

    r, saving := VipsSave(e, image, SaveOptionsOf(o), d.srgb);
    assert r.Ok? ==> saving == Saving(e, o, d);
  }

  /**
   * The steps of Resize after the scaling: the geometric steps, then
   * effects, watermark and save, stopping at the first failure. The plan
   * records the scaling stage's result and calls unchanged.
   */
  method Render(e: Engine, kind: ImageType, scale: ScaledImage, scaling: seq<Op>, inWidth: int, inHeight: int, d: Defaults)
    returns (r: Result<Plan>)
    requires Ordered(scaling) && Within(scaling, 1, 1)
    ensures r.Ok? ==>
      var p := r.value;
      && p.kind == kind && p.loaded == scale.image && p.scaling == scaling && p.options == scale.options
      && p.shrink == scale.shrink && p.residual == scale.residual
    ensures r.Ok? ==> r.value.Staged() && Ordered(r.value.Ops())
    ensures r.Ok? ==>
      var p := r.value;
      && Reshaped(e, scale.image, scale.options, inWidth, inHeight, scale.shrink, scale.residual,
                  p.zooming, p.turning, p.transforming, p.output)
      && Finished(e, scale.options, d, p.output, p.effects, p.marking, p.saving)
    // a failure is libvips' or the request's; a placeable request on a reliable engine succeeds
    ensures r.Err? ==> r.error.EngineFault? || Refused(scale.options, r.error)
    ensures Reliable(e) && scale.options.zoom >= 0 && Placeable(scale.options, d.maxSize) ==> r.Ok?
  {
    var shaped, zoomOps, turnOps, transformOps :=
      Reshape(e, scale.image, scale.options, inWidth, inHeight, scale.shrink, scale.residual, d.maxSize);
    if shaped.Err? {
      return Err(shaped.error);
    }

    var finished, effectOps, markOps, saveOps := Finish(e, shaped.value, scale.options, d);
    if finished.Err? {
      return Err(finished.error);
    }

    assert finished.value == shaped.value;
    var p := Plan(kind, scale.image, scaling, zoomOps, turnOps, transformOps, effectOps, markOps, saveOps,
                  shaped.value, scale.options, scale.shrink, scale.residual);
    PlanOrder(p);
    r := Ok(p);
  }

  /**
   * Everything Resize does after reading: the scaling arithmetic and
   * shrink-on-load, then the remaining steps, stopping at the first
   * failure. `o` holds the options with their defaults filled in.
   */
  method Process(e: Engine, image: Raster, imageType: ImageType, o: Options, d: Defaults) returns (r: Result<Plan>)
    ensures r.Ok? ==> SoundPlan(e, image, imageType, o, d, r.value)
    // a failure is libvips' or the request's; a placeable request on a reliable engine succeeds
    ensures r.Err? ==> r.error.EngineFault? || Refused(o, r.error)
    ensures Reliable(e) && o.zoom >= 0 && Placeable(ScaledOptions(e, o, image.width, image.height), d.maxSize) ==> r.Ok?
  {
    var scaled, scaleOps := PlanScale(e, image, imageType, o);
    if scaled.Err? {
      return Err(scaled.error);
    }
    r := Render(e, imageType, scaled.value, scaleOps, image.width, image.height, d);
  }

  /** The steps' calls, each in order and of its own kind, make one list in pipeline order. */
  lemma PlanOrder(p: Plan)
    requires p.Staged()
    ensures Ordered(p.Ops())
  {
    var ops := [Load(p.kind)];
    OrderedAppend(ops, p.scaling, 0, 1, 1);
    ops := ops + p.scaling;
    OrderedAppend(ops, p.zooming, 0, 2, 2);
    ops := ops + p.zooming;
    OrderedAppend(ops, p.turning, 0, 3, 4);
    ops := ops + p.turning;
    OrderedAppend(ops, p.transforming, 0, 5, 7);
    ops := ops + p.transforming;
    OrderedAppend(ops, p.effects, 0, 8, 8);
    ops := ops + p.effects;
    OrderedAppend(ops, p.marking, 0, 9, 9);
    ops := ops + p.marking;
    OrderedAppend(ops, p.saving, 0, 10, 12);
  }

  /** In a staged plan the rank of a call tells which step made it. */
  lemma StepOf(p: Plan, op: Op)
    requires p.Staged() && op in p.Ops()
    ensures op.Rank() == 0 ==> op == Load(p.kind)
    ensures op.Rank() == 1 ==> op in p.scaling
    ensures op.Rank() == 2 ==> op in p.zooming
    ensures 3 <= op.Rank() <= 4 ==> op in p.turning
    ensures 5 <= op.Rank() <= 7 ==> op in p.transforming
    ensures op.Rank() == 8 ==> op in p.effects
    ensures op.Rank() == 9 ==> op in p.marking
    ensures op.Rank() >= 10 ==> op in p.saving
  {
  }

  /**
   * The zoom, rotation and flips of a staged plan, read off its steps:
   * each exactly when the options ask for it, with the arguments Resize
   * passes.
   */
  lemma TurnCalls(o: Options, exif: int, p: Plan)
    requires p.Staged()
    requires p.zooming == (if o.zoom == 0 then [] else [Zoom(o.zoom + 1)])
    requires p.turning == Turning(o, exif)
    ensures Zoom(o.zoom + 1) in p.Ops() <==> o.zoom != 0
    ensures forall op <- p.Ops() :: op.Zoom? ==> op == Zoom(o.zoom + 1)
    ensures Rotate(RotationAngle(o, exif)) in p.Ops() <==> RotateRequested(o, exif)
    ensures forall op <- p.Ops() :: op.Rotate? ==> op == Rotate(RotationAngle(o, exif))
    ensures Flip(Horizontal) in p.Ops() <==> Flipped(o, exif)
    ensures Flip(Vertical) in p.Ops() <==> !Flipped(o, exif) && o.flop
  {
    TurningCalls(o, exif);
    forall op | op in p.Ops()
      ensures op.Zoom? ==> op == Zoom(o.zoom + 1) && o.zoom != 0
      ensures op.Rotate? ==> op == Rotate(RotationAngle(o, exif)) && RotateRequested(o, exif)
      ensures op == Flip(Horizontal) ==> Flipped(o, exif)
      ensures op == Flip(Vertical) ==> !Flipped(o, exif) && o.flop
    {
      StepOf(p, op);
    }
  }

  /**
   * The last calls of a staged plan, read off its steps: the encoder of
   * the requested output last, and the blur and watermark exactly when
   * the options ask for them.
   */
  lemma FinishCalls(o: Options, d: Defaults, p: Plan)
    requires p.Staged()
    requires p.effects == (if ShouldApplyEffects(o) then [Blur(o.gaussianBlur.sigma, o.gaussianBlur.minAmpl)] else [])
    requires p.marking == (if o.watermark.text == [] then [] else [Mark(WatermarkDefaults(o.watermark, p.output.width, d.font))])
    requires p.saving != [] && p.saving[|p.saving| - 1] == Save(SaveEncoder(SaveOptionsOf(o)))
    ensures p.Ops()[0] == Load(p.kind)
    ensures p.Ops()[|p.Ops()| - 1] == Save(SaveEncoder(SaveOptionsOf(o)))
    ensures Blur(o.gaussianBlur.sigma, o.gaussianBlur.minAmpl) in p.Ops() <==> ShouldApplyEffects(o)
    ensures forall op <- p.Ops() :: op.Blur? ==> op == Blur(o.gaussianBlur.sigma, o.gaussianBlur.minAmpl)
    ensures Mark(WatermarkDefaults(o.watermark, p.output.width, d.font)) in p.Ops() <==> o.watermark.text != []
    ensures forall op <- p.Ops() :: op.Mark? ==> op == Mark(WatermarkDefaults(o.watermark, p.output.width, d.font))
  {
    var ops := p.Ops();
    assert ops[|ops| - 1] == p.saving[|p.saving| - 1];
    forall op | op in ops && (op.Blur? || op.Mark?)
      ensures op in p.effects || op in p.marking
    {
      StepOf(p, op);
    }
  }

  /**
   * The save calls of a staged plan are its only profile removal and
   * colour-space conversion: the first exactly when asked for, the
   * second, to the defaulted interpretation, exactly when libvips
   * supports it.
   */
  lemma SaveCalls(e: Engine, o: Options, d: Defaults, p: Plan)
    requires p.Staged() && p.saving == Saving(e, o, d)
    ensures RemoveProfile in p.Ops() <==> o.noProfile
    ensures Colourspace(OrDefault(o.interpretation, d.srgb)) in p.Ops() <==> e.colourspaceSupported
    ensures forall op <- p.Ops() :: op.Colourspace? ==> op == Colourspace(OrDefault(o.interpretation, d.srgb))
  {
    var before := [Load(p.kind)];
    OrderedAppend(before, p.scaling, 0, 1, 1);
    before := before + p.scaling;
    OrderedAppend(before, p.zooming, 0, 2, 2);
    before := before + p.zooming;
    OrderedAppend(before, p.turning, 0, 3, 4);
    before := before + p.turning;
    OrderedAppend(before, p.transforming, 0, 5, 7);
    before := before + p.transforming;
    OrderedAppend(before, p.effects, 0, 8, 8);
    before := before + p.effects;
    OrderedAppend(before, p.marking, 0, 9, 9);
    before := before + p.marking;
    assert p.Ops() == before + p.saving;
    SaveSteps(e, o, d, before, p.saving);
  }


  /**
   * Calls that all rank below the save step, followed by the save calls:
   * the save calls are the only profile removal and colour-space
   * conversion.
   */
  lemma SaveSteps(e: Engine, o: Options, d: Defaults, before: seq<Op>, saving: seq<Op>)
    requires Within(before, 0, 9) && saving == Saving(e, o, d)
    ensures RemoveProfile in before + saving <==> o.noProfile
    ensures Colourspace(OrDefault(o.interpretation, d.srgb)) in before + saving <==> e.colourspaceSupported
    ensures forall op <- before + saving :: op.Colourspace? ==> op == Colourspace(OrDefault(o.interpretation, d.srgb))
  {
    assert forall op <- before + saving :: op in before || op in saving;
  }


  /**
   * The calls of a sound plan beyond the geometry, for the request as
   * given: scaling changes none of the options these calls depend on.
   */
  lemma PlanCalls(e: Engine, image: Raster, kind: ImageType, o: Options, d: Defaults, p: Plan)
    requires SoundPlan(e, image, kind, o, d, p)
    ensures p.Ops()[0] == Load(kind)
    ensures p.Ops()[|p.Ops()| - 1] == Save(SaveEncoder(SaveOptionsOf(o)))
    ensures Zoom(o.zoom + 1) in p.Ops() <==> o.zoom != 0
    ensures Rotate(RotationAngle(o, e.exifOrientation)) in p.Ops() <==> RotateRequested(o, e.exifOrientation)
    ensures Flip(Horizontal) in p.Ops() <==> Flipped(o, e.exifOrientation)
    ensures Flip(Vertical) in p.Ops() <==> !Flipped(o, e.exifOrientation) && o.flop
    ensures Blur(o.gaussianBlur.sigma, o.gaussianBlur.minAmpl) in p.Ops() <==> ShouldApplyEffects(o)
    ensures Mark(WatermarkDefaults(o.watermark, p.output.width, d.font)) in p.Ops() <==> o.watermark.text != []
    ensures RemoveProfile in p.Ops() <==> o.noProfile
    ensures Colourspace(OrDefault(o.interpretation, d.srgb)) in p.Ops() <==> e.colourspaceSupported
  {
    var q := p.options;
    assert q == o.(force := q.force, width := q.width, height := q.height);
    SizeBlind(o, q, e.exifOrientation);
    StepCalls(e, q, d, image.width, image.height, p);
  }

  /** Rotation, flips, effects and saving do not look at force or the requested size. */
  lemma SizeBlind(o: Options, q: Options, exif: int)
    requires q == o.(force := q.force, width := q.width, height := q.height)
    ensures RotateRequested(q, exif) == RotateRequested(o, exif) && RotationAngle(q, exif) == RotationAngle(o, exif)
    ensures Flipped(q, exif) == Flipped(o, exif) && ShouldApplyEffects(q) == ShouldApplyEffects(o)
    ensures SaveOptionsOf(q) == SaveOptionsOf(o)
  {
  }

  /** The calls of a staged plan whose steps did what the options `o` ask, read off the whole plan. */
  lemma StepCalls(e: Engine, o: Options, d: Defaults, inWidth: int, inHeight: int, p: Plan)
    requires p.Staged()
    requires Reshaped(e, p.loaded, o, inWidth, inHeight, p.shrink, p.residual, p.zooming, p.turning, p.transforming, p.output)
    requires Finished(e, o, d, p.output, p.effects, p.marking, p.saving)
    ensures p.Ops()[0] == Load(p.kind)
    ensures p.Ops()[|p.Ops()| - 1] == Save(SaveEncoder(SaveOptionsOf(o)))
    ensures Zoom(o.zoom + 1) in p.Ops() <==> o.zoom != 0
    ensures Rotate(RotationAngle(o, e.exifOrientation)) in p.Ops() <==> RotateRequested(o, e.exifOrientation)
    ensures Flip(Horizontal) in p.Ops() <==> Flipped(o, e.exifOrientation)
    ensures Flip(Vertical) in p.Ops() <==> !Flipped(o, e.exifOrientation) && o.flop
    ensures Blur(o.gaussianBlur.sigma, o.gaussianBlur.minAmpl) in p.Ops() <==> ShouldApplyEffects(o)
    ensures Mark(WatermarkDefaults(o.watermark, p.output.width, d.font)) in p.Ops() <==> o.watermark.text != []
    ensures RemoveProfile in p.Ops() <==> o.noProfile
    ensures Colourspace(OrDefault(o.interpretation, d.srgb)) in p.Ops() <==> e.colourspaceSupported
  {
    TurnCalls(o, e.exifOrientation, p);
    FinishCalls(o, d, p);
    SaveCalls(e, o, d, p);
  }

  /**
   * A staged plan with no shrink-on-load, and with transformImage either
   * skipped or given no shrink, no residual and no force, resamples
   * nowhere.
   */
  lemma NoResampleSteps(e: Engine, o: Options, inWidth: int, inHeight: int, p: Plan)
    requires p.Staged()
    requires Reshaped(e, p.loaded, o, inWidth, inHeight, p.shrink, p.residual, p.zooming, p.turning, p.transforming, p.output)
    requires p.scaling == []
    requires !ShouldTransformImage(o, inWidth, inHeight) || (p.shrink <= 1 && !o.force && p.residual == 0.0)
    ensures forall op <- p.Ops() :: !op.Resamples()
  {
    forall op | op in p.Ops()
      ensures !op.Resamples()
    {
      StepOf(p, op);
    }
  }

  /**
   * A staged plan whose options ask for no zoom, no rotation, no flip and
   * no transformImage changes the geometry nowhere after the load.
   */
  lemma StillSteps(e: Engine, o: Options, inWidth: int, inHeight: int, p: Plan)
    requires p.Staged()
    requires Reshaped(e, p.loaded, o, inWidth, inHeight, p.shrink, p.residual, p.zooming, p.turning, p.transforming, p.output)
    requires p.scaling == [] && !ShouldTransformImage(o, inWidth, inHeight)
    requires o.zoom == 0 && o.rotate <= 0 && o.noAutoRotate && !o.flip && !o.flop
    ensures forall op <- p.Ops() :: !op.Reshapes()
  {
    assert !RotateRequested(o, e.exifOrientation) && !Flipped(o, e.exifOrientation);
    assert p.turning == [];
    forall op | op in p.Ops()
      ensures !op.Reshapes()
    {
      StepOf(p, op);
    }
  }

  /**
   * The no-enlarge guard in a sound plan: nothing resamples, the input
   * is loaded as it is, and, with no area, zoom or rotation asked for,
   * the encoder receives the input's own raster.
   */
  lemma NoEnlargePlan(e: Engine, image: Raster, kind: ImageType, o: Options, d: Defaults, p: Plan)
    requires SoundPlan(e, image, kind, o, d, p)
    requires NoEnlarge(o, image.width, image.height)
    ensures p.loaded == image
    ensures forall op <- p.Ops() :: !op.Resamples()
    ensures o.areaWidth <= 0 && o.areaHeight <= 0 && o.zoom == 0 && o.rotate <= 0 && o.noAutoRotate ==> p.output == image
  {
    assert ScaleCalculation(e, o, image.width, image.height).shrink == 1;
    assert !p.options.force;
    NoResampleSteps(e, p.options, image.width, image.height, p);
  }

  /**
   * A forced resize to both sides, with no crop offset, resamples, never
   * embeds, and yields exactly the requested size when the affine is exact.
   */
  lemma ForcedPlan(e: Engine, image: Raster, kind: ImageType, o: Options, d: Defaults, p: Plan)
    requires SoundPlan(e, image, kind, o, d, p)
    requires (o.force || ForceImplied(o)) && o.width >= 1 && o.height >= 1 && o.top <= 0 && o.left <= 0
    ensures ExactAffine(e) ==> p.output == Size(o.width, o.height)
    ensures exists op <- p.Ops() :: op.Affine?
    ensures forall op <- p.Ops() :: !op.Embed?
  {
    var q := p.options;
    assert q.force && q.width == o.width && q.height == o.height;
    ForcedSteps(e, q, image.width, image.height, p);
  }

  /** The force clauses of the geometric steps, read off the whole plan. */
  lemma ForcedSteps(e: Engine, o: Options, inWidth: int, inHeight: int, p: Plan)
    requires p.Staged()
    requires Reshaped(e, p.loaded, o, inWidth, inHeight, p.shrink, p.residual, p.zooming, p.turning, p.transforming, p.output)
    requires o.force
    ensures o.width >= 1 && o.height >= 1 && o.top <= 0 && o.left <= 0 && ExactAffine(e) ==> p.output == Size(o.width, o.height)
    ensures exists op <- p.Ops() :: op.Affine?
    ensures forall op <- p.Ops() :: !op.Embed?
  {
    var t := Transformation(e, Turned(e, p.loaded, o), o, p.shrink, p.residual);
    assert ShouldTransformImage(o, inWidth, inHeight);
    assert p.transforming == t.0 && p.output == t.1;
    ForcedTransformation(e, Turned(e, p.loaded, o), o, p.shrink, p.residual);
    ResampleCalls(p);
  }

  /** An affine among the calls of transformImage, and no embed there, hold for the whole staged plan. */
  lemma ResampleCalls(p: Plan)
    requires p.Staged()
    requires exists op <- p.transforming :: op.Affine?
    requires forall op <- p.transforming :: !op.Embed?
    ensures exists op <- p.Ops() :: op.Affine?
    ensures forall op <- p.Ops() :: !op.Embed?
  {
    var a :| a in p.transforming && a.Affine?;
    assert a in p.Ops();
    forall op | op in p.Ops() && op.Embed?
      ensures op in p.transforming
    {
      StepOf(p, op);
    }
  }

  /**
   * A crop or embed request without force, in a sound plan whose geometry
   * runs, ends the calls of transformImage with the crop window or the
   * embed canvas: for a crop the encoder receives the requested size cut
   * down to the resampled raster, and for an embed exactly the requested
   * size.
   */
  lemma PlacedPlan(e: Engine, image: Raster, kind: ImageType, o: Options, d: Defaults, p: Plan)
    requires SoundPlan(e, image, kind, o, d, p)
    requires !o.force && (o.crop || o.embed) && ShouldTransformImage(p.options, image.width, image.height)
    ensures p.transforming != []
    ensures o.crop ==>
      var a := Resampling(e, Turned(e, p.loaded, p.options), p.options, p.shrink, p.residual).1;
      && p.transforming[|p.transforming| - 1].Extract?
      && p.output == Size(Min(a.width, p.options.width), Min(a.height, p.options.height))
    ensures !o.crop ==>
      p.transforming[|p.transforming| - 1].Embed? && p.output == Size(p.options.width, p.options.height)
  {
    var q := p.options;
    assert !q.force && q.crop == o.crop && q.embed == o.embed;
    PlacedSteps(e, q, image.width, image.height, p);
  }

  /** The crop and embed clauses of the geometric steps, read off the plan. */
  lemma PlacedSteps(e: Engine, o: Options, inWidth: int, inHeight: int, p: Plan)
    requires Reshaped(e, p.loaded, o, inWidth, inHeight, p.shrink, p.residual, p.zooming, p.turning, p.transforming, p.output)
    requires !o.force && (o.crop || o.embed) && ShouldTransformImage(o, inWidth, inHeight)
    ensures p.transforming != []
    ensures o.crop ==>
      var a := Resampling(e, Turned(e, p.loaded, o), o, p.shrink, p.residual).1;
      p.transforming[|p.transforming| - 1].Extract? && p.output == Size(Min(a.width, o.width), Min(a.height, o.height))
    ensures !o.crop ==> p.transforming[|p.transforming| - 1].Embed? && p.output == Size(o.width, o.height)
  {
    PlacedTransformation(e, Turned(e, p.loaded, o), o, p.shrink, p.residual);
  }

  /**
   * A request that asks for no size, no force, no area, no zoom and no
   * rotation leaves the input's raster as it is: nothing resamples, the
   * encoder receives the input, and without a flip nothing changes its
   * geometry.
   */
  lemma UntouchedPlan(e: Engine, image: Raster, kind: ImageType, o: Options, d: Defaults, p: Plan)
    requires SoundPlan(e, image, kind, o, d, p)
    requires o.width <= 0 && o.height <= 0 && !o.force && o.areaWidth <= 0 && o.areaHeight <= 0
    requires o.zoom == 0 && o.rotate <= 0 && o.noAutoRotate
    ensures p.output == image
    ensures forall op <- p.Ops() :: !op.Resamples()
    ensures !o.flip && !o.flop ==> forall op <- p.Ops() :: !op.Reshapes()
  {
    var q := p.options;
    assert ScaleCalculation(e, o, image.width, image.height).shrink == 1;
    assert !ShouldTransformImage(q, image.width, image.height);
    NoResampleSteps(e, q, image.width, image.height, p);
    if !o.flip && !o.flop {
      StillSteps(e, q, image.width, image.height, p);
    }
  }

  /**
   * Resize as a planner: the four stages in order, stopping at the first
   * failure. The plan lists every libvips call from the load to the save.
   */
  method Resize(buf: seq<byte>, o: Options, e: Engine, d: Defaults) returns (r: Result<Plan>)
    // failures before anything is decoded
    ensures |buf| == 0 ==> r == Err(EmptyBuffer)
    ensures |buf| > 0 && VipsImageType(buf, e.magickLoader) == OutOfRange ==> r == Err(IndexPanic)
    ensures |buf| > 0 && VipsImageType(buf, e.magickLoader) == Sniffed(Unknown) ==> r == Err(UnsupportedFormat)
    ensures |buf| > 0 && VipsRead(e, buf).Err? ==> r == Err(VipsRead(e, buf).error)
    ensures |buf| > 0 && VipsRead(e, buf).Ok? && !e.typeSupported(WithDefaults(o, VipsRead(e, buf).value.1, d).imageType) ==>
      r == Err(UnsupportedOutputType)
    // a plan is sound for the decoded image and the defaulted options
    ensures r.Ok? ==> |buf| > 0 && VipsRead(e, buf).Ok?
    ensures r.Ok? ==>
      var kind := VipsRead(e, buf).value.1;
      var od := WithDefaults(o, kind, d);
      e.typeSupported(od.imageType) && SoundPlan(e, e.decoded, kind, od, d, r.value)
    // after decoding, a failure is libvips' or the request's; a placeable request on a reliable engine succeeds
    ensures r.Err? && |buf| > 0 && VipsRead(e, buf).Ok? && e.typeSupported(WithDefaults(o, VipsRead(e, buf).value.1, d).imageType) ==>
      r.error.EngineFault? || Refused(o, r.error)
    ensures |buf| > 0 && VipsRead(e, buf).Ok? ==>
      var od := WithDefaults(o, VipsRead(e, buf).value.1, d);
      (e.typeSupported(od.imageType) && Reliable(e) && o.zoom >= 0
       && Placeable(ScaledOptions(e, od, e.decoded.width, e.decoded.height), d.maxSize)) ==> r.Ok?
  {
    var read := ReadImage(buf, o, e, d);
    if read.Err? {
      return Err(read.error);
    }
    r := Process(e, read.value.0, read.value.1, read.value.2, d);
  }
}

=== FILE: vips.dfy ===
/**
 * The pure parts of vips.go: format sniffing by magic bytes, the guards in
 * vipsRead and vipsExtract, the choice of encoder in vipsSave and the
 * default colour interpretation in vipsPreSave.
 */
module Vips {
  import opened Base
  import opened Model

  const PNG_MAGIC: seq<byte> := [0x89, 0x50, 0x4E, 0x47]
  const JPEG_MAGIC: seq<byte> := [0xFF, 0xD8, 0xFF]
  /** "WEBP", at offset 8 of a RIFF container. */
  const WEBP_MAGIC: seq<byte> := [0x57, 0x45, 0x42, 0x50]
  /** Little-endian TIFF, "II*\0". */
  const TIFF_II_MAGIC: seq<byte> := [0x49, 0x49, 0x2A, 0x00]
  /** Big-endian TIFF, "MM\0*". */
  const TIFF_MM_MAGIC: seq<byte> := [0x4D, 0x4D, 0x00, 0x2A]

  /** Outcome of a chain `b[at] == m[0] && b[at+1] == m[1] && ...` evaluated left to right. */
  datatype Match = Hit | Miss | Past

  /**
   * Go's short-circuit comparison of magic bytes at offset `at`: it stops
   * at the first mismatch, and panics (Past) when it indexes beyond the
   * buffer before finding one.
   */
  function Probe(b: seq<byte>, at: nat, magic: seq<byte>): (p: Match)
    requires magic != [] || at <= |b|
    decreases |magic|
    ensures p == Hit <==> at + |magic| <= |b| && b[at..at + |magic|] == magic
    ensures p == Past ==> |b| < at + |magic|
    ensures p == Past ==> forall i :: at <= i < |b| ==> b[i] == magic[i - at]
    ensures |b| < at + |magic| && (forall i :: at <= i < |b| ==> b[i] == magic[i - at]) ==> p == Past
  {
    if magic == [] then Hit
    else if at >= |b| then Past
    else if b[at] != magic[0] then Miss
    else
      var p := Probe(b, at + 1, magic[1..]);
      assert p == Hit ==> b[at..at + |magic|] == [b[at]] + b[at + 1..at + 1 + |magic[1..]|];
      p
  }

  /** What vipsImageType returns, or the index panic it raises on a short buffer. */
  datatype Sniff = Sniffed(kind: ImageType) | OutOfRange

  function Check(p: Match, kind: ImageType, otherwise: Sniff): Sniff {
    match p
    case Hit => Sniffed(kind)
    case Past => OutOfRange
    case Miss => otherwise
  }

  /**
   * The container a whole buffer of at least 12 bytes declares, written
   * over slices: PNG, then JPEG, then WEBP, then TIFF in either byte
   * order, then whatever the MAGICK loader accepts.
   */
  function DeclaredType(b: seq<byte>, magick: bool): ImageType
    requires |b| >= 12
  {
    if b[..4] == PNG_MAGIC then Png
    else if b[..3] == JPEG_MAGIC then Jpeg
    else if b[8..12] == WEBP_MAGIC then Webp
    else if b[..4] == TIFF_II_MAGIC || b[..4] == TIFF_MM_MAGIC then Tiff
    else if magick then Magick
    else Unknown
  }

  /**
   * vipsImageType. `magick` stands for the MAGICK branch: MAGICK support is
   * compiled in and libvips finds a *MagickBuffer loader for the bytes.
   */
  function VipsImageType(b: seq<byte>, magick: bool): (s: Sniff)
    ensures |b| == 0 ==> s == Sniffed(Unknown)
    // PNG is tested first and wins over every later test, at any length
    ensures |b| >= 4 && b[..4] == PNG_MAGIC ==> s == Sniffed(Png)
    ensures |b| >= 3 && b[..3] == JPEG_MAGIC ==> s == Sniffed(Jpeg)
    // from 12 bytes on nothing panics and the checks run in the declared order
    ensures |b| >= 12 ==> s == Sniffed(DeclaredType(b, magick))
    // shorter buffers: only PNG or JPEG survive up to 8 bytes, and 1 or 2 bytes always panic
    ensures 1 <= |b| <= 8 ==> s == Sniffed(Png) || s == Sniffed(Jpeg) || s == OutOfRange
    ensures 1 <= |b| <= 2 ==> s == OutOfRange
    ensures s == OutOfRange ==> 1 <= |b| < 12
  {
    if |b| == 0 then Sniffed(Unknown)
    else
      Check(Probe(b, 0, PNG_MAGIC), Png,
      Check(Probe(b, 0, JPEG_MAGIC), Jpeg,
      Check(Probe(b, 8, WEBP_MAGIC), Webp,
      Check(Probe(b, 0, TIFF_II_MAGIC), Tiff,
      Check(Probe(b, 0, TIFF_MM_MAGIC), Tiff,
      Sniffed(if magick then Magick else Unknown))))))
  }

  function BoolToInt(b: bool): (r: int)
    ensures 0 <= r <= 1
    ensures (r != 0) == b
  {
    if b then 1 else 0
  }

  /**
   * vipsRead: sniff, refuse an unknown format without decoding, then decode.
   * The decoded image and the detected type are returned.
   */
  function VipsRead(e: Engine, buf: seq<byte>): (r: Result<(Raster, ImageType)>)
    ensures VipsImageType(buf, e.magickLoader) == Sniffed(Unknown) ==> r == Err(UnsupportedFormat)
    ensures VipsImageType(buf, e.magickLoader) == OutOfRange ==> r == Err(IndexPanic)
    ensures r.Ok? <==> VipsImageType(buf, e.magickLoader).Sniffed? && VipsImageType(buf, e.magickLoader).kind != Unknown && !e.decodeFails
    ensures r.Ok? ==> r.value == (e.decoded, VipsImageType(buf, e.magickLoader).kind)
    ensures r.Err? && VipsImageType(buf, e.magickLoader).Sniffed? && VipsImageType(buf, e.magickLoader).kind != Unknown ==>
      r.error == EngineFault(Load(VipsImageType(buf, e.magickLoader).kind))
  {
    match VipsImageType(buf, e.magickLoader)
    case OutOfRange => Err(IndexPanic)
    case Sniffed(kind) =>
      if kind == Unknown then Err(UnsupportedFormat)
      else if e.decodeFails then Err(EngineFault(Load(kind)))
      else Ok((e.decoded, kind))
  }

  /**
   * vipsExtract: an area wider or taller than MAX_SIZE is refused before
   * libvips is called; otherwise libvips extracts it.
   */
  function VipsExtract(e: Engine, image: Raster, left: int, top: int, width: int, height: int, maxSize: int): (s: (Result<Raster>, seq<Op>))
    ensures width > maxSize || height > maxSize ==> s == (Err(MaxSizeExceeded), [])
    ensures width <= maxSize && height <= maxSize ==> s.1 == [Extract(left, top, width, height)]
    ensures s.0.Ok? ==> width <= maxSize && height <= maxSize && s.0.value == Size(width, height)
    ensures s.0.Ok? ==> 0 <= left && left + width <= image.width && 0 <= top && top + height <= image.height
    ensures s.0.Err? && width <= maxSize && height <= maxSize ==> s.0.error == EngineFault(Extract(left, top, width, height))
  {
    if width > maxSize || height > maxSize then (Err(MaxSizeExceeded), [])
    else
      var op := Extract(left, top, width, height);
      (Apply(e, image, op), [op])
  }

  datatype SaveOptions = SaveOptions(
    quality: int,
    compression: int,
    imageType: ImageType,
    interlace: bool,
    noProfile: bool,
    interpretation: int)

  /** The encoder vipsSave calls: WEBP and PNG have their own, everything else is saved as JPEG. */
  function SaveEncoder(o: SaveOptions): (enc: Encoder)
    ensures enc.WebpSave? <==> o.imageType == Webp
    ensures enc.PngSave? <==> o.imageType == Png
    ensures o.imageType == Tiff || o.imageType == Magick || o.imageType == Unknown ==> enc.JpegSave?
    ensures enc.quality == o.quality
    ensures enc.PngSave? ==> enc.compression == o.compression
    ensures !enc.WebpSave? ==> (enc.interlace == 1 <==> o.interlace)
  {
    match o.imageType
    case Webp => WebpSave(o.quality)
    case Png => PngSave(o.compression, o.quality, BoolToInt(o.interlace))
    case _ => JpegSave(o.quality, BoolToInt(o.interlace))
  }

  /**
   * vipsPreSave: strip the ICC profile if asked, default the interpretation
   * to sRGB, and convert the colour space when libvips supports it for the image.
   */
  method VipsPreSave(e: Engine, image: Raster, o: SaveOptions, srgb: int)
    returns (r: Result<Raster>, o': SaveOptions, ops: seq<Op>)
    ensures o' == o.(interpretation := OrDefault(o.interpretation, srgb))
    ensures RemoveProfile in ops <==> o.noProfile
    ensures e.colourspaceSupported <==> Colourspace(o'.interpretation) in ops
    ensures forall op <- ops :: op == RemoveProfile || op == Colourspace(o'.interpretation)
    ensures Ordered(ops) && Within(ops, 10, 11)
    ensures ops == (if o.noProfile then [RemoveProfile] else [])
                   + (if e.colourspaceSupported then [Colourspace(o'.interpretation)] else [])
    ensures r.Ok? ==> r.value == image
    ensures r.Err? ==> ops != [] && r.error == EngineFault(ops[|ops| - 1]) && ops[|ops| - 1] == Colourspace(o'.interpretation)
    ensures Reliable(e) ==> r.Ok?
  {
    o' := o;
    ops := [];
    if o'.noProfile {
      ops := ops + [RemoveProfile];
    }
    if o'.interpretation == 0 {
      o' := o'.(interpretation := srgb);
    }
    r := Ok(image);
    if e.colourspaceSupported {
      var op := Colourspace(o'.interpretation);
      OrderedAppend(ops, [op], 10, 10, 11);
      ops := ops + [op];
      r := Apply(e, image, op);
    }
  }

  /** vipsSave: pre-save, then encode with the encoder the output type selects. */
  method VipsSave(e: Engine, image: Raster, o: SaveOptions, srgb: int)
    returns (r: Result<Raster>, ops: seq<Op>)
    ensures r.Ok? ==> ops != [] && ops[|ops| - 1] == Save(SaveEncoder(o)) && r.value == image
    ensures forall op <- ops :: op.RemoveProfile? || op.Colourspace? || op.Save?
    ensures Ordered(ops) && Within(ops, 10, 12)
    ensures RemoveProfile in ops <==> o.noProfile
    // the colour-space conversion, to the defaulted interpretation, exactly when libvips supports it
    ensures Colourspace(OrDefault(o.interpretation, srgb)) in ops <==> e.colourspaceSupported
    ensures forall op <- ops :: op.Colourspace? ==> op == Colourspace(OrDefault(o.interpretation, srgb))
    // on success: profile removal when asked, the conversion when supported, then the save
    ensures r.Ok? ==> ops == (if o.noProfile then [RemoveProfile] else [])
                            + (if e.colourspaceSupported then [Colourspace(OrDefault(o.interpretation, srgb))] else [])
                            + [Save(SaveEncoder(o))]
    // a failure is the last call's, and an engine that never fails saves
    ensures r.Err? ==> ops != [] && r.error == EngineFault(ops[|ops| - 1])
    ensures Reliable(e) ==> r.Ok?
  {
    var pre, o', preOps := VipsPreSave(e, image, o, srgb);
    assert o'.interpretation == OrDefault(o.interpretation, srgb);
    ops := preOps;
    if pre.Err? {
      return pre, ops;
    }
    var op := Save(SaveEncoder(o'));
    assert op == Save(SaveEncoder(o));
    OrderedAppend(ops, [op], 10, 12, 12);
    ops := ops + [op];
    assert forall x <- ops :: x in preOps || x == op;
    r := Apply(e, pre.value, op);
  }
}
